=== FILE: README.md ===
# Kernel heap and frame allocator of Rust-Os, modelled in Dafny

This project models the two memory allocators of the Rust-Os hobby kernel and
proves properties of the model.

* **`CombinedAllocator`** (src/combined_allocator.rs) is the kernel heap. It
  carves 4 KiB pages from a fixed 200 KiB region on demand. Requests of at
  most 256 bytes go to a page's 128-slot bitmap. Larger requests go to the
  page's first-fit free list, or else to its bump cursor. A LIFO cache of
  released addresses answers every request first.
* **`BootInfoFrameAllocator`** (src/memory.rs) keeps a list of free 4 KiB
  physical frames over the bootloader's memory map. It hands out the first
  free frame it meets while walking every region in 4 KiB steps. It takes a
  frame back only if the frame starts inside some region.

Every operation is a pure function from one state to the next. Locks and
atomics are dropped, so each call is one single-threaded step. `usize` values
are unbounded naturals. A null pointer or a missing frame is `None`. The
allocator's own `Vec`s are plain sequences whose storage is outside the heap;
in the kernel they draw on this same allocator (see "Left out"), so results
about `alloc` and `dealloc` describe the page and cache bookkeeping they
perform.

Modules, in dependency order:

* `Options` – the optional result.
* `Config` – the constants of src/combined_allocator.rs:6-10 and the word size 2^64.
* `Bits` – `align_up` as written, `(x + a - 1) & !(a - 1)` on 64-bit words. It uses a bitwise AND on naturals.
* `Bitmaps` – the `u128` slot bitmap as 128 booleans (bit i is element i).
* `FreeList` – `(offset, size)` block lists: search, `Vec::remove`, sort by offset, coalescing.
* `Pages` – `struct Page` and its small- and large-block allocators.
* `Heap` – `CombinedAllocator`: page growth, `alloc`, `dealloc`, invariants and scenarios.
* `Frames` – `BootInfoFrameAllocator`, `allocate_frame`, `deallocate_frame`.

Five behaviours of the code as written are stated and proved rather than
corrected:

* A page's bitmap has 128 slots of 256 bytes (32 KiB), but a page is only
  4 KiB. Once 16 slots are taken, `alloc_small` returns addresses at or past
  the page's end (`Pages.AllocSmallMayLeavePage`). So the capacity bound
  holds only for large blocks handed out on a cache miss
  (`Heap.AllocLargeInsideRegion`).
* Only the large path honours the requested alignment. A small request takes
  the lowest free slot and a cached address goes to any request, whatever
  `align` is (`Heap.AlignIgnoredOffLargePath`). On the large path the address
  is `align`-aligned when the alignment is at most a page
  (`Heap.LargeAddressAligned`).
* Every size that reaches the page loop of `dealloc` is above 1024. So the
  `dealloc_small` branch there cannot run, and small blocks are never given
  back to a bitmap (`Heap.DeallocNeverReleasesSmall`).
* A block of 257 to 1024 bytes takes the large path in `alloc`, so it is
  recorded in its page's allocations, but `dealloc` only caches its address.
  Its record stays live and its bytes never return to the page's free list
  (`Heap.MidSizeBlockStaysRecorded`).
* The allocator can hand out the same bytes twice. Bitmap slots and the bump
  cursor both count from the page's start, so on a fresh heap `alloc(128, 8)`
  and then `alloc(512, 8)` both return the heap's base
  (`Heap.SmallAndLargeShareBytes`). And `dealloc` of a block over 1024 bytes
  both frees its bytes and caches its address, so two later requests can both
  get it, one from the cache and one from the free list
  (`Heap.ReleasedBlockHandedOutTwice`).

## Model

| member | source | states |
|---|---|---|
| Bits.AlignUp | src/combined_allocator.rs:86 | `(x + a - 1) & !(a - 1)` on a 64-bit word: the result fits in a word and never exceeds `x + a - 1` |
| Bits.AlignUpIsLeastMultiple | src/combined_allocator.rs:103 | for a power-of-two `a`, when `x + a - 1` does not wrap, the masked value is a multiple of `a`, lies in `[x, x + a)`, and is no larger than any multiple of `a` that is at least `x` |
| Bitmaps.FirstClear | src/combined_allocator.rs:62-69 | the scan stops at the first clear bit at or after its start, and every bit it passes is set |
| Bitmaps.TakeLowestClear | src/combined_allocator.rs:62-70 | returns None with the bitmap unchanged exactly when all 128 bits are set; otherwise sets exactly the lowest clear bit i and the popcount grows by one |
| Bitmaps.CompactFrom | src/combined_allocator.rs:48-53 | the compaction loop, run from any bit index, ends with exactly bits `0 .. k-1` set, where k is the popcount of the input |
| Bitmaps.Compact | src/combined_allocator.rs:44-56 | compaction keeps the popcount and leaves the set bits packed at indices `0 .. k-1` |
| Bitmaps.CompactIdempotent | src/combined_allocator.rs:44-56 | compacting twice is compacting once, and an already packed bitmap is left alone |
| Bitmaps.ReleaseSlot | src/combined_allocator.rs:76-79 | clearing bit i then compacting lowers the popcount by one exactly when bit i was set, and leaves a packed bitmap |
| FreeList.IndexOf | src/combined_allocator.rs:118 | `position` finds the first matching record, and reports none exactly when the record is absent |
| FreeList.RemoveAt | src/combined_allocator.rs:119 | `Vec::remove(i)` drops element i, shifts the rest down in order, and removes exactly one copy from the multiset |
| FreeList.RemoveAtTotal | src/combined_allocator.rs:88 | removing a block takes exactly its size off the list's byte count |
| FreeList.SortByOffset | src/combined_allocator.rs:122 | the result is sorted by offset, is a permutation of the input, and keeps the byte count |
| FreeList.SortKeepsBlocks | src/combined_allocator.rs:122 | sorting keeps the set of blocks, the covered bytes and every upper bound on block ends |
| FreeList.AnySortedOrderMerges | src/combined_allocator.rs:121-123 | for every sorted rearrangement the unstable sort may produce, coalescing gives a sorted list with no touching neighbours, the same byte count, the same covered bytes and the same end bounds |
| FreeList.Absorb | src/combined_allocator.rs:130-132 | a block whose end meets its successor's start absorbs the successor, every other block staying in place; the list keeps its byte count, exactly its covered bytes, and every upper bound on block ends |
| FreeList.AbsorbKeepsOrder | src/combined_allocator.rs:130-132 | absorbing keeps the list sorted by offset, and keeps each block ending at or before its successor's start |
| FreeList.MergeFrom | src/combined_allocator.rs:128-136 | the merge loop from index i leaves no adjacent pair with `end == next.start`, and keeps the byte count, the covered bytes, sortedness and end bounds |
| FreeList.Merge | src/combined_allocator.rs:127-137 | `merge_free_blocks` leaves no touching neighbours and keeps bytes and coverage; on an ordered list the result is strictly separated |
| Pages.NewPageIsEmpty | src/combined_allocator.rs:34-42 | a new page has an empty bitmap, no allocation records, no free blocks and cursor 0, and satisfies the page invariant |
| Pages.AllocSmall | src/combined_allocator.rs:58-71 | only the bitmap changes; None exactly when all 128 slots are taken; otherwise the lowest free slot i is occupied and `start + i*256` returned |
| Pages.AllocSmallMayLeavePage | src/combined_allocator.rs:65 | with the first 16 slots taken, `alloc_small` returns `start + 4096`, the first byte past the page |
| Pages.DeallocSmall | src/combined_allocator.rs:73-80 | only the bitmap changes; the popcount drops by one exactly when slot `(ptr - start)/256` was taken, and the bitmap ends packed |
| Pages.FirstFit | src/combined_allocator.rs:85-87 | the chosen block is the first one where `align_up(offset, align) + size <= offset + block_size`; no earlier block fits |
| Pages.AllocLarge | src/combined_allocator.rs:82-114 | the free-list path takes the first fitting block and keeps the cursor; the bump path runs only when no block fits, succeeds iff `align_up(cursor) + size <= 4096`, and moves the cursor to that end; a failure changes nothing; a success appends `(offset, size)` to `allocations` |
| Pages.FragmentsTile | src/combined_allocator.rs:89-94 | the prefix and suffix fragments cover exactly the chosen block minus the allocation, and hold its remaining bytes |
| Pages.AllocLargeTilesBlock | src/combined_allocator.rs:85-99 | on the free-list path the other blocks keep their order, the byte count drops by `size`, and the covered bytes lose exactly the allocated range |
| Pages.AllocLargeAddressAligned | src/combined_allocator.rs:85-109 | on a page starting at a multiple of 4096, the address `alloc_large` returns is a multiple of any power-of-two `align` up to 4096 |
| Pages.AllocLargeAligned | src/combined_allocator.rs:85-109 | for a power-of-two alignment the returned offset is a multiple of `align`, is at least the chosen block's offset or the old cursor, and the block ends inside the page |
| Pages.AllocLargeOwned | src/combined_allocator.rs:96-98 | a non-empty large block starts inside its page and ends at or before the page end, and its record is in `allocations` |
| Pages.AllocLargeKeepsInv | src/combined_allocator.rs:102-105 | `alloc_large` keeps the page invariant, and the cursor never decreases |
| Pages.FreeListPathKeepsInv | src/combined_allocator.rs:88-96 | the free-list path keeps every free and live block below the cursor |
| Pages.DeallocLarge | src/combined_allocator.rs:116-125 | an absent `(ptr - start, size)` record changes nothing; a present one loses exactly its first copy; the free list ends sorted, with no touching neighbours, `size` more bytes, and the freed range added to its coverage |
| Pages.DeallocLargeKeepsInv | src/combined_allocator.rs:116-124 | `dealloc_large` keeps the page invariant |
| Heap.NewKeepsInv | src/combined_allocator.rs:141-149 | a new allocator has no pages, an empty cache, its cursor at the region start and its end at start plus size; it satisfies the heap invariant |
| Heap.AllocatePage | src/combined_allocator.rs:151-169 | succeeds iff `heap_current + 4096 <= heap_end`; on success one new page at the old cursor is appended and the cursor moves by exactly 4096; on failure nothing changes |
| Heap.AllocatePageKeepsInv | src/combined_allocator.rs:155-162 | page growth keeps `heap_current <= heap_end` and the back-to-back page layout |
| Heap.PageCountBound | src/combined_allocator.rs:155 | a 200 KiB heap never holds more than 50 pages, and it can grow exactly while it has fewer |
| Heap.FirstServing | src/combined_allocator.rs:180-185 | the page scan stops at the first page that serves the request; no earlier page serves it |
| Heap.Alloc | src/combined_allocator.rs:171-219 | a non-empty cache pops its last address whatever the size; otherwise the first serving page answers and is the only page changed; a page is added exactly when no existing page serves and there is room; null exactly when neither an existing page nor a new one serves |
| Heap.AllocRoutesBySize | src/combined_allocator.rs:177-216 | on a cache miss, sizes up to 256 change only bitmaps, and larger sizes change no bitmap |
| Heap.PageAllocKeepsInv | src/combined_allocator.rs:177-204 | asking one page by the size route keeps the page invariant and the page's start |
| Heap.AllocKeepsInv | src/combined_allocator.rs:171-219 | `alloc` keeps the heap invariant |
| Heap.LargeAddressAligned | src/combined_allocator.rs:198-214 | when the region starts on a page boundary and `align` is a power of two at most 4096, a large block from a cache miss has an `align`-aligned address |
| Heap.GlobalStartsOnPage | src/combined_allocator.rs:6 | the global heap's start `0x4444_4444_0000` is a multiple of 4096, and the fresh global heap meets the invariant with an empty cache |
| Heap.AllocLargeInsideRegion | src/combined_allocator.rs:198-214 | a large block handed out on a cache miss lies wholly inside one page, hence inside the heap region |
| Heap.Owner | src/combined_allocator.rs:231-232 | the scan stops at the first page with `start <= addr < start + 4096`; no earlier page holds `addr` |
| Heap.Dealloc | src/combined_allocator.rs:221-242 | sizes up to 1024 only push `addr` onto the cache; larger sizes run `dealloc_large` on the first owning page and then push; if no page owns `addr`, nothing changes |
| Heap.DeallocNeverReleasesSmall | src/combined_allocator.rs:226-237 | `dealloc` never changes a bitmap or the number of pages |
| Heap.OwnerUnique | src/combined_allocator.rs:232 | under the invariant at most one page owns an address |
| Heap.DeallocKeepsInv | src/combined_allocator.rs:221-242 | `dealloc` keeps the heap invariant |
| Heap.AllocRecordsLarge | src/combined_allocator.rs:198-214 | a large block handed out on a cache miss is recorded as `(offset, size)` in the page that owns its address |
| Heap.DeallocReleasesRecorded | src/combined_allocator.rs:231-238 | freeing a recorded large block with its own size makes its bytes free in the owning page and pushes its address |
| Heap.AllocDeallocRoundTrip | src/combined_allocator.rs:171-242 | alloc then dealloc of a block over 1024 bytes returns its bytes to its page's free list; the next alloc, of any size, gets the same address from the cache |
| Heap.MidSizeBlockStaysRecorded | src/combined_allocator.rs:194-229 | a block of 257 to 1024 bytes is recorded by alloc, and dealloc only caches its address, leaving every page, and so its record, unchanged |
| Heap.KernelMainScenario | src/main.rs:58-74 | on the page and cache bookkeeping, with the `Vec` storage outside the heap: `alloc(4096,8)` returns the heap base from a fresh page; `dealloc` frees the whole page and caches the address; `alloc(1890,8)` gets it back from the cache; the final `dealloc` finds no `(0, 1890)` record, leaves the page alone and re-caches the address, so the heap ends exactly as the first `dealloc` left it |
| Heap.TwoSmallAllocations | src/combined_allocator.rs:177-192 | on the bookkeeping, two 128-byte requests on a fresh heap get the heap base and base + 256 from one page |
| Heap.AlignIgnoredOffLargePath | src/combined_allocator.rs:172-192 | `alloc(8, 512)` after `alloc(8, 8)` returns base + 256, which is not 512-aligned; after `dealloc(base + 256, 8)` a 2048-byte request aligned to 512 gets base + 256 from the cache |
| Heap.SmallAndLargeShareBytes | src/combined_allocator.rs:58-109 | on a fresh heap `alloc(128, 8)` takes slot 0 at base, and the next `alloc(512, 8)` bumps from offset 0 and also returns base while slot 0 stays taken and `(0, 512)` is recorded |
| Heap.ReleasedBlockHandedOutTwice | src/combined_allocator.rs:171-242 | after the first `dealloc` of the kernel's scenario, two `alloc(1890, 8)` calls both return base, the first from the cache and the second from the free list |
| Heap.OversizedRequestStillGrows | src/combined_allocator.rs:209-218 | a 5000-byte request carves a page, fails with null, and leaves the empty page behind |
| Heap.FailedAllocOnlyGrows | src/combined_allocator.rs:188-218 | a failed `alloc` leaves the allocator as it was, or as `allocate_page` left it |
| Frames.ContainingFrame | src/memory.rs:69 | the containing frame is 4 KiB-aligned and its span holds the address |
| Frames.Init | src/memory.rs:49-55 | `init` keeps the memory map and starts with no free frames |
| Frames.Steps | src/memory.rs:103 | `step_by(4096)` over `start..end` yields exactly `start + i*4096` for each i whose address is below `end` |
| Frames.RegionFrames | src/memory.rs:103-106 | a frame is in a region's walk iff it contains an address the 4 KiB walk from the region start reaches |
| Frames.Candidates | src/memory.rs:96-106 | the frames `allocate_frame` examines are exactly those reached in some region, whatever its type |
| Frames.UsableFrames | src/memory.rs:58-70 | `_usable_frames` yields exactly the frames reached in regions whose type is `Usable` |
| Frames.Contains | src/memory.rs:75-80 | the loop finds a frame iff it is an element of the list |
| Frames.IsFrameFree | src/memory.rs:73-81 | `is_frame_free(f)` is true iff `f` is in `free_frames` |
| Frames.RemoveAll | src/memory.rs:86 | `retain` removes every copy of `f` and keeps every other frame with its multiplicity |
| Frames.RemoveAllConcat | src/memory.rs:86 | `retain` distributes over concatenation, so the survivors keep their original order |
| Frames.RemoveAllAbsent | src/memory.rs:86 | retaining against an absent frame changes nothing |
| Frames.MarkFrameAllocated | src/memory.rs:84-87 | afterwards `f` is not free, and every other frame is free exactly when it was before |
| Frames.FirstFree | src/memory.rs:103-112 | the scan stops at the first free candidate; no earlier candidate is free |
| Frames.AllocateFrame | src/memory.rs:94-116 | `Some(f)` only when `f` was free and reached by the walk, and no earlier candidate in region-then-address order was free; `f` is then removed; None, with nothing changed, exactly when no candidate is free |
| Frames.InSomeRegion | src/memory.rs:127-136 | the region scan succeeds iff some region has `start <= addr < end` |
| Frames.DeallocateFrame | src/memory.rs:122-140 | appends `f` iff it starts inside some region; otherwise the allocator is unchanged |
| Frames.InitAllocatesNothing | src/memory.rs:52 | right after `init`, `allocate_frame` returns None and changes nothing |
| Frames.AllocatedFrameIsTaken | src/memory.rs:108-111 | a frame just allocated is no longer free and is not returned by the next allocation |
| Frames.ReleaseThenAllocate | src/memory.rs:94-140 | with no reachable frame free, releasing a reachable in-region frame and then allocating returns that frame and restores the free list |
| Frames.AlignedRegionFrames | src/memory.rs:103-106 | for a frame-aligned region, the walk reaches exactly the frames that start inside it |
| Frames.AlignedMapAgrees | src/memory.rs:127-131 | over a frame-aligned map, `deallocate_frame` accepts exactly the frames `allocate_frame` can reach |
| Frames.UnalignedRegionDisagrees | src/memory.rs:131 | for the region `[100, 4146)` the walk reaches only frame 0, which release refuses; release accepts frame 4096, which is never handed out |

## Left out

- Non-overlap of live blocks. The design promises that two live blocks never share bytes, but the code as written breaks it in two ways (`Heap.SmallAndLargeShareBytes`, `Heap.ReleasedBlockHandedOutTwice`), so no such property is proved. The page invariant states only that blocks end inside the page and below the cursor.
- Allocation of the allocator's own storage. The `Vec`s `pages`, `cache`, `allocations` and `free_blocks` get their buffers from this same `#[global_allocator]`. In the kernel, growing one of them (`pages.push` in `allocate_page`, the block-list pushes in `alloc_large` and `dealloc_large`, `cache.push` in `dealloc`) calls `alloc` again while the cache lock is held, which spins forever; without the lock the nested call would run on half-updated state. The model treats this storage as outside the heap, so `Heap.KernelMainScenario` and the other scenarios describe the bookkeeping each call performs, not what the running kernel observes (its first `alloc` does not return).
- Concurrency: `spin::Mutex`, `AtomicUsize` and the inconsistent lock orders of `alloc`/`dealloc` and `alloc_large`/`dealloc_large`. Each call is one atomic step.
- Console output: every `println!`. The warning `deallocate_frame` prints for a foreign frame is also out. None of it affects state.
- The `GlobalAlloc`/`Layout` adapter and raw-pointer casts. `allocate_page` returns the new page's index instead of a pointer.
- Page-table access: `memory::init` and `active_level_4_table` read CR3 and dereference raw memory.
- src/interrupts.rs and the boot code of src/main.rs are hardware set-up. Only the allocator calls at src/main.rs:58-74 are modelled, as a scenario.
- The unused `_next` field of `BootInfoFrameAllocator`.
- `usize` overflow. Addresses and sizes are unbounded naturals. `align_up` keeps its 64-bit mask, so its own carry is modelled. An overflowing `aligned_offset + size` or `start + offset` is not.
- Debug-mode panics are stated as preconditions. `ptr - start` must not underflow (`Pages.DeallocSmall`, `Pages.DeallocLarge`). The `u128` shift needs a slot index below 128 (`Pages.DeallocSmall`).
- `FreeList.Merge` requires a non-empty list. `free_blocks.len() - 1` would underflow on an empty one, and its only caller always pushes a block first.
- `FreeList.SortByOffset` is a stable insertion sort, so the model fixes one of the orders `sort_unstable_by_key` may produce for blocks with equal offsets. The page invariant does not exclude such ties: it bounds block ends but does not make blocks disjoint, so a record that overlaps a free block can be freed next to a block with the same offset, and coalescing can then depend on their order. `FreeList.AnySortedOrderMerges` proves that every free-list property `Pages.DeallocLarge` states holds for each of those orders.
- `Pages.AllocLargeAligned` and the other alignment lemmas need a power-of-two alignment, which `Layout` guarantees. The address itself is aligned only on the large path and only for alignments up to a page (`Heap.LargeAddressAligned`); above 4096 only the offset within the page is aligned, and the small and cache paths ignore `align` (`Heap.AlignIgnoredOffLargePath`).
- A cached address 0 would read as null in the source. The model keeps `Some(0)`.
- `PhysAddr::new` panics for addresses with bits 52-63 set. Region bounds are unbounded naturals here.
- `Frames.UsableFrames` is modelled although `_usable_frames` is never called.
- `Heap.AllocLargeInsideRegion` covers only large blocks handed out on a cache miss. The small path can exceed a page (`Pages.AllocSmallMayLeavePage`), so no capacity bound holds for it, and the cache hands any request whatever address it holds, which may be such a small-path address past the region's end.

=== FILE: bitmap.dfy ===
/** The 128-slot occupancy bitmap of a page's small-block allocator
    (the `u128` of src/combined_allocator.rs:30). Bit i of the word is
    element i of the sequence; `true` means the slot is occupied. */
module Bitmaps {
  import opened Config
  import opened Options

  type Bitmap = b: seq<bool> | |b| == BITMAP_BITS witness seq(128, i => false)

  /** The bitmap of a fresh page: every slot free. */
  function Empty(): (b: Bitmap)
    ensures forall i :: 0 <= i < BITMAP_BITS ==> !b[i]
  {
    seq(128, i => false)
  }

  /** Number of set bits. */
  function Count(s: seq<bool>): (n: nat)
    ensures n <= |s|
  {
    if |s| == 0 then 0
    else Count(s[..|s| - 1]) + (if s[|s| - 1] then 1 else 0)
  }

  /** Exactly the slots 0 .. k-1 are occupied. */
  predicate IsPacked(b: Bitmap, k: nat)
  {
    forall i :: 0 <= i < BITMAP_BITS ==> (b[i] <==> i < k)
  }

  lemma {:induction false} CountPacked(s: seq<bool>, k: nat)
    requires k <= |s|
    requires forall i :: 0 <= i < |s| ==> (s[i] <==> i < k)
    ensures Count(s) == k
    decreases |s|
  {
    if |s| > 0 {
      var t := s[..|s| - 1];
      if k == |s| {
        CountPacked(t, k - 1);
      } else {
        CountPacked(t, k);
      }
    }
  }

  /** Setting a clear bit adds one to the count, clearing a set bit removes one. */
  lemma {:induction false} CountUpdate(s: seq<bool>, i: nat, v: bool)
    requires i < |s|
    ensures Count(s[i := v]) + (if s[i] then 1 else 0) == Count(s) + (if v then 1 else 0)
    decreases |s|
  {
    var n := |s| - 1;
    assert s[i := v][..n] == if i == n then s[..n] else s[..n][i := v];
    if i < n {
      CountUpdate(s[..n], i, v);
    }
  }

  /** Index of the first clear bit at or after `from`, or 128 if there is none:
      the `while bit != 0` scan of `alloc_small`. */
  function FirstClear(b: Bitmap, from: nat): (r: nat)
    requires from <= BITMAP_BITS
    ensures from <= r <= BITMAP_BITS
    ensures forall j :: from <= j < r ==> b[j]
    ensures r < BITMAP_BITS ==> !b[r]
    decreases BITMAP_BITS - from
  {
    if from == BITMAP_BITS || !b[from] then from else FirstClear(b, from + 1)
  }

  /** Occupy the lowest free slot (src/combined_allocator.rs:58-71, on the bitmap alone).
      Returns the slot index, or None with the bitmap untouched when all
      128 bits are set. */
  function TakeLowestClear(b: Bitmap): (r: (Option<nat>, Bitmap))
    ensures r.0.None? <==> forall j :: 0 <= j < BITMAP_BITS ==> b[j]
    ensures r.0.None? ==> r.1 == b
    ensures r.0.Some? ==>
      && r.0.value < BITMAP_BITS
      && !b[r.0.value]
      && (forall j :: 0 <= j < r.0.value ==> b[j])
      && r.1 == b[r.0.value := true]
      && Count(r.1) == Count(b) + 1
  {
    var i := FirstClear(b, 0);
    if i < BITMAP_BITS then
      CountUpdate(b, i, true);
      (Some(i), b[i := true])
    else
      (None, b)
  }

  /** The loop of `compact_small_block_bitmap` from index `i` on, with
      `acc` the bitmap built so far and `bitIndex` the number of set bits
      already moved into it. */
  function CompactFrom(b: Bitmap, i: nat, acc: Bitmap, bitIndex: nat): (r: Bitmap)
    requires i <= BITMAP_BITS
    requires bitIndex == Count(b[..i])
    requires IsPacked(acc, bitIndex)
    ensures IsPacked(r, Count(b))
    decreases BITMAP_BITS - i
  {
    if i == BITMAP_BITS then
      assert b[..i] == b;
      acc
    else
      assert b[..i + 1][..i] == b[..i];
      if b[i] then
        CompactFrom(b, i + 1, acc[bitIndex := true], bitIndex + 1)
      else
        CompactFrom(b, i + 1, acc, bitIndex)
  }

  /** `compact_small_block_bitmap` (src/combined_allocator.rs:44-56): re-packs the
      set bits toward index 0. */
  function Compact(b: Bitmap): (r: Bitmap)
    ensures IsPacked(r, Count(b))
    ensures Count(r) == Count(b)
  {
    assert b[..0] == [];
    var r := CompactFrom(b, 0, Empty(), 0);
    CountPacked(r, Count(b));
    r
  }

  /** Compaction is idempotent, and leaves an already packed bitmap alone. */
  lemma CompactIdempotent(b: Bitmap)
    ensures Compact(Compact(b)) == Compact(b)
    ensures (exists k: nat :: IsPacked(b, k)) ==> Compact(b) == b
  {
    var c := Compact(b);
    assert Compact(c) == c;
    if k: nat :| IsPacked(b, k) {
      if k >= BITMAP_BITS {
        CountPacked(b, BITMAP_BITS);
      } else {
        CountPacked(b, k);
      }
      assert Compact(b) == b;
    }
  }

  /** Clear slot i, then compact: the bitmap half of `dealloc_small`
      (src/combined_allocator.rs:73-80). The count drops by one exactly when
      slot i was occupied, and the survivors are packed into slots 0 .. k-1. */
  function ReleaseSlot(b: Bitmap, i: nat): (r: Bitmap)
    requires i < BITMAP_BITS
    ensures Count(r) == Count(b) - (if b[i] then 1 else 0)
    ensures IsPacked(r, Count(r))
  {
    CountUpdate(b, i, false);
    Compact(b[i := false])
  }
}

=== FILE: bits.dfy ===
/** Bit arithmetic on unbounded naturals, used to state the allocator's
    `align_up` exactly as it is written: `(x + a - 1) & !(a - 1)` on `usize`. */
module Bits {
  import opened Config

  /** A natural number that is 2^k for some k. */
  predicate IsPowerOfTwo(a: nat)
    decreases a
  {
    a == 1 || (a > 1 && a % 2 == 0 && IsPowerOfTwo(a / 2))
  }

  /** Bitwise AND of two naturals, bit by bit from the least significant one. */
  function BitAnd(x: nat, y: nat): (r: nat)
    ensures r <= x && r <= y
    decreases x
  {
    if x == 0 || y == 0 then 0
    else 2 * BitAnd(x / 2, y / 2) + (if x % 2 == 1 && y % 2 == 1 then 1 else 0)
  }

  /** `!(a - 1)` on a 64-bit word: every bit of `a - 1` flipped. */
  function ComplementOfPred(a: nat): (r: nat)
    requires 0 < a < WORD
    ensures r + (a - 1) == WORD - 1
  {
    WORD - a
  }

  /** `align_up` as the source writes it (src/combined_allocator.rs:86 and :103).
      The mask is below 2^64, so the AND also drops any carry out of the
      64-bit sum `x + a - 1`, as a wrapping `usize` addition would. */
  function AlignUp(x: nat, a: nat): (r: nat)
    requires 0 < a < WORD
    ensures r < WORD
    ensures r <= x + a - 1
  {
    BitAnd(x + a - 1, ComplementOfPred(a))
  }

  lemma {:induction false} MulAtLeast(d: nat, a: nat)
    requires d >= 1
    ensures d * a >= a
    decreases d
  {
    if d > 1 {
      MulAtLeast(d - 1, a);
      assert d * a == (d - 1) * a + a;
    }
  }

  lemma SmallMultipleIsZero(d: nat, a: nat)
    requires d * a < a
    ensures d == 0
  {
    if d >= 1 {
      MulAtLeast(d, a);
    }
  }

  /** Quotient and remainder are unique. */
  lemma ModUnique(v: nat, a: nat, q: nat, r: nat)
    requires 0 < a && r < a && v == q * a + r
    ensures v % a == r && v / a == q
  {
    var q', r' := v / a, v % a;
    if q >= q' {
      assert (q - q') * a == r' - r;
      SmallMultipleIsZero(q - q', a);
    } else {
      assert (q' - q) * a == r - r';
      SmallMultipleIsZero(q' - q, a);
    }
  }

  /** ANDing with an all-ones mask of n bits leaves an n-bit value unchanged. */
  lemma {:induction false} AndAllOnes(v: nat, n: nat)
    requires v < Pow2(n)
    ensures BitAnd(v, Pow2(n) - 1) == v
  {
    if v != 0 && n != 0 {
      var w := Pow2(n);
      assert w == 2 * Pow2(n - 1);
      assert (w - 1) % 2 == 1 && (w - 1) / 2 == Pow2(n - 1) - 1;
      AndAllOnes(v / 2, n - 1);
    }
  }

  /** For a even, the remainder modulo a splits into the low bit and the
      remainder of the upper bits modulo a / 2. */
  lemma ModOfHalf(v: nat, a: nat)
    requires a >= 2 && a % 2 == 0
    ensures v % a == v % 2 + 2 * ((v / 2) % (a / 2))
  {
    var h := a / 2;
    var q := (v / 2) / h;
    var r := (v / 2) % h;
    assert v / 2 == q * h + r;
    assert v == q * a + (2 * r + v % 2) by {
      assert v == 2 * (v / 2) + v % 2;
      assert 2 * (q * h) == q * a;
    }
    ModUnique(v, a, q, 2 * r + v % 2);
  }

  /** One step of the bitwise AND with an even mask: the low bit is
      dropped and the rest is the AND of the halves. */
  lemma AndEvenMask(v: nat, mask: nat, half: nat)
    requires mask == 2 * half
    ensures BitAnd(v, mask) == 2 * BitAnd(v / 2, half)
  {
  }

  /** Clearing the low bits: `v & (2^n - a)` is v rounded down to a multiple
      of a, when a is a power of two with a <= 2^n and v < 2^n. */
  lemma {:induction false} AndHighMask(v: nat, n: nat, a: nat)
    requires IsPowerOfTwo(a) && a <= Pow2(n) && v < Pow2(n)
    ensures BitAnd(v, Pow2(n) - a) == v - v % a
    decreases a
  {
    var w := Pow2(n);
    assert 0 < a <= w;
    if a == 1 {
      AndAllOnes(v, n);
    } else if v == 0 {
      ModUnique(v, a, 0, 0);
    } else if w == a {
      ModUnique(v, a, 0, v);
    } else {
      assert n > 0;
      var hw, ha := Pow2(n - 1), a / 2;
      assert w == 2 * hw && a == 2 * ha;
      assert IsPowerOfTwo(ha) && ha <= hw && v / 2 < hw;
      AndHighMask(v / 2, n - 1, ha);
      AndStep(v, a, ha, w, hw);
    }
  }

  /** The inductive step of `AndHighMask`: if the AND of the upper bits of v
      with the halved mask rounds them down to a multiple of a / 2, then the
      AND of v with the mask rounds v down to a multiple of a. */
  lemma AndStep(v: nat, a: nat, ha: nat, w: nat, hw: nat)
    requires a == 2 * ha && w == 2 * hw && 0 < ha <= hw
    requires BitAnd(v / 2, hw - ha) == v / 2 - (v / 2) % ha
    ensures BitAnd(v, w - a) == v - v % a
  {
    var mask, hmask := w - a, hw - ha;
    var hv, lo := v / 2, v % 2;
    assert v == 2 * hv + lo;
    AndEvenMask(v, mask, hmask);
    assert a >= 2 && a % 2 == 0 && a / 2 == ha;
    ModOfHalf(v, a);
    assert v % a == lo + 2 * (hv % ha);
    HalvesRecombine(v, hv, lo, hv % ha, v % a, BitAnd(hv, hmask), BitAnd(v, mask));
  }

  /** The arithmetic that closes the inductive step of `AndHighMask`. */
  lemma HalvesRecombine(v: int, hv: int, lo: int, m: int, vmod: int, andHalf: int, andFull: int)
    requires v == 2 * hv + lo && vmod == lo + 2 * m
    requires andHalf == hv - m && andFull == 2 * andHalf
    ensures andFull == v - vmod
  {
  }

  lemma {:induction false} MulMonotone(i: nat, j: nat, a: nat)
    requires i <= j
    ensures i * a <= j * a
    decreases j - i
  {
    if i < j {
      MulMonotone(i, j - 1, a);
      assert j * a == (j - 1) * a + a;
    }
  }

  /** `v - v % a` is a multiple of `a` within `a` below `v`. */
  lemma RoundDown(v: nat, a: nat)
    requires 0 < a
    ensures (v - v % a) % a == 0
    ensures v - v % a <= v < v - v % a + a
  {
    var k := v / a;
    var r := v - v % a;
    assert v == k * a + v % a;
    assert r == k * a;
    ModUnique(r, a, k, 0);
  }

  /** Distinct multiples of `a` lie at least `a` apart. */
  lemma MultiplesSpaced(m: nat, r: nat, a: nat)
    requires 0 < a && m % a == 0 && r % a == 0 && m < r
    ensures m + a <= r
  {
    var j, k := m / a, r / a;
    assert m == j * a + m % a && r == k * a + r % a;
    if j >= k {
      MulMonotone(k, j, a);
    } else {
      MulMonotone(j + 1, k, a);
      assert (j + 1) * a == m + a;
    }
  }

  lemma AlignUpRoundsDown(x: nat, a: nat)
    requires IsPowerOfTwo(a) && a < WORD && x + a - 1 < WORD
    ensures AlignUp(x, a) == (x + a - 1) - (x + a - 1) % a
  {
    var v := x + a - 1;
    Pow2Word();
    AndHighMask(v, 64, a);
    assert ComplementOfPred(a) == Pow2(64) - a;
    assert AlignUp(x, a) == BitAnd(v, ComplementOfPred(a));
  }

  /** A multiple of `a` within `a` above `x` is the least multiple of `a`
      that is at least `x`. */
  lemma LeastMultiple(x: nat, a: nat, r: nat)
    requires 0 < a && r % a == 0 && x <= r < x + a
    ensures forall m: nat :: m % a == 0 && m >= x ==> r <= m
  {
    forall m: nat | m % a == 0 && m >= x
      ensures r <= m
    {
      if m < r {
        MultiplesSpaced(m, r, a);
      }
    }
  }

  /** For a power-of-two alignment, the source's `align_up` is the least
      multiple of `a` that is at least `x` (no wrap-around occurs as long as
      `x + a - 1` fits in a word). */
  lemma AlignUpIsLeastMultiple(x: nat, a: nat)
    requires IsPowerOfTwo(a) && a < WORD && x + a - 1 < WORD
    ensures AlignUp(x, a) % a == 0
    ensures x <= AlignUp(x, a) < x + a
    ensures forall m: nat :: m % a == 0 && m >= x ==> AlignUp(x, a) <= m
  {
    var v := x + a - 1;
    var r := AlignUp(x, a);
    AlignUpRoundsDown(x, a);
    assert r == v - v % a;
    RoundDown(v, a);
    assert r % a == 0 && x <= r < x + a;
    LeastMultiple(x, a, r);
  }

  /** 2^k. */
  function Pow2(k: nat): (r: nat)
    ensures r >= 1
  {
    if k == 0 then 1 else 2 * Pow2(k - 1)
  }

  lemma {:induction false} Pow2Add(j: nat, k: nat)
    ensures Pow2(j + k) == Pow2(j) * Pow2(k)
    decreases j
  {
    if j > 0 {
      Pow2Add(j - 1, k);
    }
  }

  /** A power of two below 2^n is at most 2^(n-1). */
  lemma {:induction false} PowerOfTwoBelow(a: nat, n: nat)
    requires IsPowerOfTwo(a) && a < Pow2(n)
    ensures 2 * a <= Pow2(n)
    decreases a
  {
    if a > 1 {
      PowerOfTwoBelow(a / 2, n - 1);
    }
  }

  /** A power-of-two `usize` is at most 2^63. */
  lemma PowerOfTwoBelowWord(a: nat)
    requires IsPowerOfTwo(a) && a < WORD
    ensures 2 * a <= WORD
  {
    Pow2Word();
    PowerOfTwoBelow(a, 64);
  }

  /** A power of two at most 2^n divides 2^n. */
  lemma {:induction false} PowerOfTwoDivides(a: nat, n: nat)
    requires IsPowerOfTwo(a) && a <= Pow2(n)
    ensures Pow2(n) % a == 0
    decreases a
  {
    if a == 1 {
      ModUnique(Pow2(n), 1, Pow2(n), 0);
    } else {
      var ha := a / 2;
      assert a == 2 * ha && n > 0;
      PowerOfTwoDivides(ha, n - 1);
      var q := Pow2(n - 1) / ha;
      assert Pow2(n - 1) == q * ha;
      assert Pow2(n) == q * a;
      ModUnique(Pow2(n), a, q, 0);
    }
  }

  /** Divisibility is transitive: a multiple of m is a multiple of every divisor of m. */
  lemma MultipleOfDivisor(x: nat, m: nat, a: nat)
    requires 0 < a && 0 < m && x % m == 0 && m % a == 0
    ensures x % a == 0
  {
    var q, q' := x / m, m / a;
    assert x == q * m && m == q' * a;
    assert x == (q * q') * a;
    ModUnique(x, a, q * q', 0);
  }

  /** The sum of two multiples of a is a multiple of a. */
  lemma MultiplesAdd(x: nat, y: nat, a: nat)
    requires 0 < a && x % a == 0 && y % a == 0
    ensures (x + y) % a == 0
  {
    var q, q' := x / a, y / a;
    assert x == q * a && y == q' * a;
    assert x + y == (q + q') * a;
    ModUnique(x + y, a, q + q', 0);
  }

  /** A page-aligned base plus an `align`-aligned offset is `align`-aligned,
      for any power of two up to a page. */
  lemma AlignedSum(start: nat, off: nat, align: nat)
    requires IsPowerOfTwo(align) && align <= PAGE_SIZE
    requires start % PAGE_SIZE == 0 && off % align == 0
    ensures (start + off) % align == 0
  {
    Pow2Page();
    PowerOfTwoDivides(align, 12);
    MultipleOfDivisor(start, PAGE_SIZE, align);
    MultiplesAdd(start, off, align);
  }

  /** The j-th page slot of a page-aligned region is page-aligned. */
  lemma SlotOnPage(base: nat, j: nat)
    requires base % PAGE_SIZE == 0
    ensures (base + j * PAGE_SIZE) % PAGE_SIZE == 0
  {
    ModUnique(j * PAGE_SIZE, PAGE_SIZE, j, 0);
    MultiplesAdd(base, j * PAGE_SIZE, PAGE_SIZE);
  }

  /** The page size is 2^12. */
  lemma Pow2Page()
    ensures Pow2(12) == PAGE_SIZE
  {
    assert Pow2(4) == 16;
    Pow2Add(4, 4);
    assert Pow2(8) == 256;
    Pow2Add(8, 4);
  }

  /** The word size is 2^64. */
  lemma Pow2Word()
    ensures Pow2(64) == WORD
  {
    assert Pow2(2) == 4;
    Pow2Add(2, 2);
    assert Pow2(4) == 16;
    Pow2Add(4, 4);
    assert Pow2(8) == 256;
    Pow2Add(8, 8);
    assert Pow2(16) == 0x1_0000;
    Pow2Add(16, 16);
    assert Pow2(32) == 0x1_0000_0000;
    Pow2Add(32, 32);
  }
}

=== FILE: config.dfy ===
/** Build-time constants of the kernel heap (src/combined_allocator.rs, lines 6-10). */
module Config {

  /** Virtual address where the heap region begins. */
  const HEAP_START: nat := 0x4444_4444_0000

  /** Size of the heap region: 200 KiB. */
  const HEAP_SIZE: nat := 200 * 1024

  /** Size of one heap page, the unit of growth. */
  const PAGE_SIZE: nat := 4096

  /** Requests up to this many bytes take the small-block (bitmap) path;
      it is also the width of one bitmap slot. */
  const SMALL_BLOCK_SIZE: nat := 256

  /** Releases up to this many bytes only go to the recycle cache. */
  const MAX_CACHEABLE_SIZE: nat := 1024

  /** Number of slots in the small-block bitmap (a `u128`). */
  const BITMAP_BITS: nat := 128

  /** 2^64: one more than the largest `usize`. */
  const WORD: nat := 0x1_0000_0000_0000_0000
}

=== FILE: frames.dfy ===
/** The physical-frame allocator of src/memory.rs (`BootInfoFrameAllocator`):
    a list of free 4 KiB frames over the bootloader's memory map. Frames are
    handed out first-fit by walking every region in 4 KiB steps, and taken
    back only when they lie inside some region. */
module Frames {
  import opened Options

  /** `Size4KiB::SIZE`: bytes in one physical frame. */
  const FRAME_SIZE: nat := 4096

  /** A `PhysFrame<Size4KiB>`, identified by its 4 KiB-aligned start address. */
  type Frame = f: nat | f % FRAME_SIZE == 0

  /** One entry of the bootloader's memory map: the byte range
      [start, end) and whether its type is `Usable`. */
  datatype Region = Region(start: nat, end: nat, usable: bool)

  type MemoryMap = seq<Region>

  datatype FrameAllocator = FrameAllocator(memoryMap: MemoryMap, freeFrames: seq<Frame>)

  /** `PhysFrame::containing_address`: the frame whose 4 KiB span holds `addr`. */
  function ContainingFrame(addr: nat): (f: Frame)
    ensures f <= addr < f + FRAME_SIZE
  {
    addr - addr % FRAME_SIZE
  }

  /** `BootInfoFrameAllocator::init` (src/memory.rs:49-55): no frame is free yet. */
  function Init(m: MemoryMap): (r: FrameAllocator)
    ensures r.memoryMap == m && |r.freeFrames| == 0
  {
    FrameAllocator(m, [])
  }

  // ---------------------------------------------------------------------
  // Walking a region in 4 KiB steps

  /** The k-th address of `(start..end).step_by(4096)` over a region. */
  function StepAddress(r: Region, k: nat): nat
  {
    r.start + k * FRAME_SIZE
  }

  /** `(start..end).step_by(4096)`: the addresses start, start + 4096, ...
      below end, in increasing order. */
  function Steps(start: nat, end: nat): (r: seq<nat>)
    ensures forall i :: 0 <= i < |r| ==> r[i] == start + i * FRAME_SIZE && r[i] < end
    ensures start + |r| * FRAME_SIZE >= end
    decreases if start < end then end - start else 0
  {
    if start >= end then [] else [start] + Steps(start + FRAME_SIZE, end)
  }

  /** `f` is the frame containing one of the addresses a region's walk reaches. */
  ghost predicate ReachedIn(r: Region, f: Frame)
  {
    exists k: nat :: StepAddress(r, k) < r.end && ContainingFrame(StepAddress(r, k)) == f
  }

  /** The frames of one region's walk, in walk order. */
  function RegionFrames(r: Region): (fs: seq<Frame>)
    ensures forall f :: f in fs <==> ReachedIn(r, f)
  {
    var addrs := Steps(r.start, r.end);
    var fs := seq(|addrs|, i requires 0 <= i < |addrs| => ContainingFrame(addrs[i]));
    WalkReaches(r, fs);
    fs
  }

  lemma WalkReaches(r: Region, fs: seq<Frame>)
    requires var addrs := Steps(r.start, r.end);
      |fs| == |addrs| && forall i :: 0 <= i < |fs| ==> fs[i] == ContainingFrame(addrs[i])
    ensures forall f :: f in fs <==> ReachedIn(r, f)
  {
    var addrs := Steps(r.start, r.end);
    forall f | ReachedIn(r, f)
      ensures f in fs
    {
      var k: nat :| StepAddress(r, k) < r.end && ContainingFrame(StepAddress(r, k)) == f;
      if k >= |addrs| {
        assert false;
      }
      assert fs[k] == f;
    }
    forall f | f in fs
      ensures ReachedIn(r, f)
    {
      var i :| 0 <= i < |fs| && fs[i] == f;
      assert StepAddress(r, i) == addrs[i];
    }
  }

  /** Every frame `allocate_frame` may look at, in the order it looks:
      all regions in map order, whatever their type, and within a region
      the 4 KiB walk from its start. */
  function Candidates(m: MemoryMap): (fs: seq<Frame>)
    ensures forall f :: f in fs <==> exists i :: 0 <= i < |m| && ReachedIn(m[i], f)
  {
    if |m| == 0 then []
    else
      var rest := Candidates(m[1..]);
      assert forall i :: 1 <= i < |m| ==> m[i] == m[1..][i - 1];
      RegionFrames(m[0]) + rest
  }

  /** `_usable_frames` (src/memory.rs:58-70): the same walk restricted to the
      regions whose type is `Usable`. */
  function UsableFrames(m: MemoryMap): (fs: seq<Frame>)
    ensures forall f :: f in fs <==> exists i :: 0 <= i < |m| && m[i].usable && ReachedIn(m[i], f)
  {
    if |m| == 0 then []
    else
      var rest := UsableFrames(m[1..]);
      assert forall i :: 1 <= i < |m| ==> m[i] == m[1..][i - 1];
      if m[0].usable then RegionFrames(m[0]) + rest else rest
  }

  // ---------------------------------------------------------------------
  // The free list

  /** The `for` loop of `is_frame_free` over a list of frames. */
  function Contains(s: seq<Frame>, f: Frame): (b: bool)
    ensures b <==> f in s
  {
    if |s| == 0 then false
    else if s[0] == f then true
    else Contains(s[1..], f)
  }

  /** `is_frame_free` (src/memory.rs:73-81). */
  function IsFrameFree(a: FrameAllocator, f: Frame): (b: bool)
    ensures b <==> f in a.freeFrames
  {
    Contains(a.freeFrames, f)
  }

  /** `Vec::retain(|x| x != f)`: drop every copy of `f`, keeping the rest. */
  function RemoveAll(s: seq<Frame>, f: Frame): (r: seq<Frame>)
    ensures forall g :: g in r <==> g in s && g != f
    ensures multiset(r)[f] == 0
    ensures forall g :: g != f ==> multiset(r)[g] == multiset(s)[g]
    ensures |r| == |s| - multiset(s)[f]
  {
    if |s| == 0 then []
    else
      assert s == [s[0]] + s[1..];
      if s[0] == f then RemoveAll(s[1..], f) else [s[0]] + RemoveAll(s[1..], f)
  }

  /** `retain` works element by element, so it keeps the order of the survivors. */
  lemma {:induction false} RemoveAllConcat(s: seq<Frame>, t: seq<Frame>, f: Frame)
    ensures RemoveAll(s + t, f) == RemoveAll(s, f) + RemoveAll(t, f)
    decreases |s|
  {
    if |s| == 0 {
      assert s + t == t;
    } else {
      assert (s + t)[1..] == s[1..] + t;
      RemoveAllConcat(s[1..], t, f);
    }
  }

  /** Removing a frame that is not there changes nothing. */
  lemma {:induction false} RemoveAllAbsent(s: seq<Frame>, f: Frame)
    requires f !in s
    ensures RemoveAll(s, f) == s
    decreases |s|
  {
    if |s| > 0 {
      RemoveAllAbsent(s[1..], f);
      assert s == [s[0]] + s[1..];
    }
  }

  /** `mark_frame_allocated` (src/memory.rs:84-87). */
  function MarkFrameAllocated(a: FrameAllocator, f: Frame): (r: FrameAllocator)
    ensures r.memoryMap == a.memoryMap
    ensures !IsFrameFree(r, f)
    ensures forall g :: g != f ==> (IsFrameFree(r, g) <==> IsFrameFree(a, g))
  {
    a.(freeFrames := RemoveAll(a.freeFrames, f))
  }

  // ---------------------------------------------------------------------
  // Allocation and release

  /** Index of the first candidate at or after `from` that is free, or |cands|. */
  function FirstFree(cands: seq<Frame>, a: FrameAllocator, from: nat): (i: nat)
    requires from <= |cands|
    ensures from <= i <= |cands|
    ensures forall j :: from <= j < i ==> !IsFrameFree(a, cands[j])
    ensures i < |cands| ==> IsFrameFree(a, cands[i])
    decreases |cands| - from
  {
    if from == |cands| || IsFrameFree(a, cands[from]) then from
    else FirstFree(cands, a, from + 1)
  }

  /** `allocate_frame` (src/memory.rs:94-116): the first free frame in walk
      order, which is then dropped from the free list; None, with nothing
      changed, when no frame the walk reaches is free. */
  function AllocateFrame(a: FrameAllocator): (r: (Option<Frame>, FrameAllocator))
    ensures r.1.memoryMap == a.memoryMap
    ensures r.0.None? <==> forall f :: f in Candidates(a.memoryMap) ==> f !in a.freeFrames
    ensures r.0.None? ==> r.1 == a
    ensures r.0.Some? ==>
      var f := r.0.value;
      && f in a.freeFrames
      && (exists i :: 0 <= i < |a.memoryMap| && ReachedIn(a.memoryMap[i], f))
      && (exists i :: 0 <= i < |Candidates(a.memoryMap)| && Candidates(a.memoryMap)[i] == f
            && forall j :: 0 <= j < i ==> Candidates(a.memoryMap)[j] !in a.freeFrames)
      && r.1.freeFrames == RemoveAll(a.freeFrames, f)
  {
    var cands := Candidates(a.memoryMap);
    var i := FirstFree(cands, a, 0);
    if i < |cands| then
      assert cands[i] in cands;
      (Some(cands[i]), MarkFrameAllocated(a, cands[i]))
    else
      (None, a)
  }

  /** The region scan of `deallocate_frame`: does some region hold `addr`? */
  function InSomeRegion(m: MemoryMap, addr: nat): (b: bool)
    ensures b <==> exists i :: 0 <= i < |m| && m[i].start <= addr < m[i].end
  {
    if |m| == 0 then false
    else if m[0].start <= addr < m[0].end then true
    else
      assert forall i :: 1 <= i < |m| ==> m[i] == m[1..][i - 1];
      InSomeRegion(m[1..], addr)
  }

  /** `deallocate_frame` (src/memory.rs:122-140): a frame inside some region
      is appended to the free list; any other frame is ignored (the source
      only prints a warning). */
  function DeallocateFrame(a: FrameAllocator, f: Frame): (r: FrameAllocator)
    ensures r.memoryMap == a.memoryMap
    ensures (exists i :: 0 <= i < |a.memoryMap| && a.memoryMap[i].start <= f < a.memoryMap[i].end)
      ==> r.freeFrames == a.freeFrames + [f]
    ensures (forall i :: 0 <= i < |a.memoryMap| ==> !(a.memoryMap[i].start <= f < a.memoryMap[i].end))
      ==> r == a
  {
    if InSomeRegion(a.memoryMap, f) then a.(freeFrames := a.freeFrames + [f]) else a
  }

  // ---------------------------------------------------------------------
  // Properties

  /** Right after `init` nothing can be allocated, whatever the memory map. */
  lemma InitAllocatesNothing(m: MemoryMap)
    ensures AllocateFrame(Init(m)) == (None, Init(m))
  {
  }

  /** A frame just handed out is no longer free, so it cannot be handed out
      again before it is released. */
  lemma AllocatedFrameIsTaken(a: FrameAllocator)
    ensures var (f, r) := AllocateFrame(a);
      f.Some? ==> !IsFrameFree(r, f.value) && AllocateFrame(r).0 != Some(f.value)
  {
  }

  /** Releasing a reachable frame into an allocator with no reachable free
      frame, then allocating, gives the same frame back and restores the
      free list. */
  lemma ReleaseThenAllocate(a: FrameAllocator, f: Frame)
    requires forall g :: g in Candidates(a.memoryMap) ==> g !in a.freeFrames
    requires f in Candidates(a.memoryMap) && InSomeRegion(a.memoryMap, f)
    ensures var (g, r) := AllocateFrame(DeallocateFrame(a, f));
      g == Some(f) && r == a
  {
    var b := DeallocateFrame(a, f);
    assert b.freeFrames == a.freeFrames + [f];
    var (g, r) := AllocateFrame(b);
    assert g.Some?;
    assert g.value == f;
    RemoveAllConcat(a.freeFrames, [f], f);
    RemoveAllAbsent(a.freeFrames, f);
    assert RemoveAll([f], f) == [];
  }

  /** When a region starts on a frame boundary, its walk reaches exactly the
      frames that start inside it. */
  lemma AlignedRegionFrames(r: Region, f: Frame)
    requires r.start % FRAME_SIZE == 0
    ensures ReachedIn(r, f) <==> r.start <= f < r.end
  {
    if ReachedIn(r, f) {
      var k: nat :| StepAddress(r, k) < r.end && ContainingFrame(StepAddress(r, k)) == f;
      assert StepAddress(r, k) % FRAME_SIZE == 0;
    }
    if r.start <= f < r.end {
      var k: nat := (f - r.start) / FRAME_SIZE;
      assert StepAddress(r, k) == f;
    }
  }

  /** Over a frame-aligned memory map, the frames `deallocate_frame` accepts
      are exactly the frames `allocate_frame` can reach. */
  lemma AlignedMapAgrees(m: MemoryMap, f: Frame)
    requires forall i :: 0 <= i < |m| ==> m[i].start % FRAME_SIZE == 0
    ensures f in Candidates(m) <==> InSomeRegion(m, f)
  {
    forall i | 0 <= i < |m|
      ensures ReachedIn(m[i], f) <==> m[i].start <= f < m[i].end
    {
      AlignedRegionFrames(m[i], f);
    }
  }

  /** Over a region that is not frame-aligned the two disagree: for
      [100, 4146) the walk reaches only frame 0, which `deallocate_frame`
      refuses, while it accepts frame 4096, which the walk never reaches.
      A bootloader that reports regions as whole frames never hands the
      kernel such a map; the lemma shows what the code would do with one,
      and `AlignedMapAgrees` covers the maps it does receive. */
  lemma UnalignedRegionDisagrees()
    ensures var m := [Region(100, 4146, true)];
      && Candidates(m) == [0]
      && DeallocateFrame(Init(m), 0) == Init(m)
      && DeallocateFrame(Init(m), 4096).freeFrames == [4096]
      && AllocateFrame(DeallocateFrame(Init(m), 4096)).0 == None
  {
    var m := [Region(100, 4146, true)];
    assert Steps(4196, 4146) == [];
    assert Steps(100, 4146) == [100];
    assert RegionFrames(m[0]) == [0];
    assert Candidates(m[1..]) == [];
  }
}

=== FILE: freelist.dfy ===
/** The `(offset, size)` block lists of a page's large-block allocator
    (`allocations` and `free_blocks`, src/combined_allocator.rs:28-29), and the
    list operations `dealloc_large` performs on them: search, sort by offset
    and coalescing. */
module FreeList {
  import opened Config
  import opened Bits

  /** A block of a page: (offset from the page start, size in bytes). */
  type Block = (nat, nat)

  /** One past the last byte of a block. */
  function End(b: Block): nat
  {
    b.0 + b.1
  }

  /** Byte offset x lies inside block b. */
  predicate InBlock(b: Block, x: nat)
  {
    b.0 <= x < End(b)
  }

  /** Byte offset x lies inside some block of the list. */
  predicate Covered(bs: seq<Block>, x: nat)
  {
    exists b :: b in bs && InBlock(b, x)
  }

  /** Sum of the sizes of the blocks. */
  function TotalSize(bs: seq<Block>): nat
  {
    if |bs| == 0 then 0 else bs[0].1 + TotalSize(bs[1..])
  }

  lemma {:induction false} TotalSizeConcat(a: seq<Block>, b: seq<Block>)
    ensures TotalSize(a + b) == TotalSize(a) + TotalSize(b)
    decreases |a|
  {
    if |a| == 0 {
      assert a + b == b;
    } else {
      assert (a + b)[1..] == a[1..] + b;
      TotalSizeConcat(a[1..], b);
    }
  }

  /** Offsets never decrease along the list. */
  predicate SortedByOffset(bs: seq<Block>)
  {
    forall i, j :: 0 <= i < j < |bs| ==> bs[i].0 <= bs[j].0
  }

  /** No block ends exactly where its successor begins: the state
      `merge_free_blocks` leaves behind. */
  predicate NoTouching(bs: seq<Block>)
  {
    forall i :: 0 <= i < |bs| - 1 ==> End(bs[i]) != bs[i + 1].0
  }

  /** Each block ends at or before the start of its successor. */
  predicate Ordered(bs: seq<Block>)
  {
    forall i :: 0 <= i < |bs| - 1 ==> End(bs[i]) <= bs[i + 1].0
  }

  /** Each block ends strictly before its successor begins: sorted, disjoint
      and maximally coalesced. */
  predicate Separated(bs: seq<Block>)
  {
    forall i :: 0 <= i < |bs| - 1 ==> End(bs[i]) < bs[i + 1].0
  }

  /** Every block ends at or below `limit`. */
  predicate WithinLimit(bs: seq<Block>, limit: nat)
  {
    forall b :: b in bs ==> End(b) <= limit
  }

  // ---------------------------------------------------------------------
  // Search

  /** Position of the first element equal to x, or |s| if there is none:
      `iter().position(..)` of `dealloc_large`. */
  function IndexOf(s: seq<Block>, x: Block): (r: nat)
    ensures r <= |s|
    ensures r < |s| ==> s[r] == x
    ensures forall j :: 0 <= j < r ==> s[j] != x
    ensures r == |s| <==> x !in s
  {
    if |s| == 0 then 0
    else if s[0] == x then 0
    else 1 + IndexOf(s[1..], x)
  }

  /** `Vec::remove(i)`: drop the element at position i, keeping the others in order. */
  function RemoveAt(s: seq<Block>, i: nat): (r: seq<Block>)
    requires i < |s|
    ensures |r| == |s| - 1
    ensures forall j :: 0 <= j < i ==> r[j] == s[j]
    ensures forall j :: i <= j < |r| ==> r[j] == s[j + 1]
    ensures multiset(r) + multiset{s[i]} == multiset(s)
    ensures forall b :: b in r ==> b in s
  {
    assert s == s[..i] + [s[i]] + s[i + 1..];
    s[..i] + s[i + 1..]
  }

  /** Removing a block takes exactly its size off the byte count. */
  lemma {:induction false} RemoveAtTotal(s: seq<Block>, i: nat)
    requires i < |s|
    ensures TotalSize(RemoveAt(s, i)) + s[i].1 == TotalSize(s)
    decreases i
  {
    var r := RemoveAt(s, i);
    if i == 0 {
      assert r == s[1..];
    } else {
      var t := s[1..];
      RemoveAtTotal(t, i - 1);
      assert r[0] == s[0] && r[1..] == RemoveAt(t, i - 1);
      assert t[i - 1] == s[i];
      assert TotalSize(s) == s[0].1 + TotalSize(t);
      assert TotalSize(r) == s[0].1 + TotalSize(r[1..]);
    }
  }

  // ---------------------------------------------------------------------
  // Sorting by offset

  /** Insert b before the first block whose offset is at least b's, so b
      goes after every block with a smaller offset. */
  function Insert(b: Block, s: seq<Block>): (r: seq<Block>)
    requires SortedByOffset(s)
    ensures SortedByOffset(r)
    ensures multiset(r) == multiset(s) + multiset{b}
    ensures TotalSize(r) == TotalSize(s) + b.1
  {
    if |s| == 0 then [b]
    else if b.0 <= s[0].0 then [b] + s
    else
      var t := Insert(b, s[1..]);
      assert s == [s[0]] + s[1..];
      InsertBelow(s, b, t);
      PrependSorted(s[0], t);
      [s[0]] + t
  }

  /** Every block of the recursive insertion's result starts no lower than
      the head of the sorted list it was inserted behind. */
  lemma InsertBelow(s: seq<Block>, b: Block, t: seq<Block>)
    requires |s| > 0 && SortedByOffset(s) && s[0].0 < b.0
    requires multiset(t) == multiset(s[1..]) + multiset{b}
    ensures forall y :: y in t ==> s[0].0 <= y.0
  {
    forall y | y in t
      ensures s[0].0 <= y.0
    {
      assert y in multiset(t);
      if y != b {
        assert y in multiset(s[1..]);
        var k :| 0 <= k < |s[1..]| && s[1..][k] == y;
        assert s[k + 1] == y;
      }
    }
  }

  /** Putting a block in front of a sorted list whose blocks all start no
      lower keeps it sorted, and adds its size to the byte count. */
  lemma PrependSorted(x: Block, t: seq<Block>)
    requires SortedByOffset(t) && forall y :: y in t ==> x.0 <= y.0
    ensures SortedByOffset([x] + t)
    ensures TotalSize([x] + t) == x.1 + TotalSize(t)
  {
    var r := [x] + t;
    assert r[1..] == t;
    forall i, j | 0 <= i < j < |r|
      ensures r[i].0 <= r[j].0
    {
      assert r[j] == t[j - 1];
      if i > 0 {
        assert r[i] == t[i - 1];
      } else {
        assert t[j - 1] in t;
      }
    }
  }

  /** `sort_unstable_by_key(|&(offset, _)| offset)`, modelled as insertion sort
      (src/combined_allocator.rs:122). */
  function SortByOffset(s: seq<Block>): (r: seq<Block>)
    ensures SortedByOffset(r)
    ensures multiset(r) == multiset(s)
    ensures TotalSize(r) == TotalSize(s)
  {
    if |s| == 0 then []
    else
      assert s == [s[0]] + s[1..];
      Insert(s[0], SortByOffset(s[1..]))
  }

  /** Sorting keeps the set of blocks, hence the covered bytes and any bound on ends. */
  lemma SortKeepsBlocks(s: seq<Block>)
    ensures forall b :: b in SortByOffset(s) <==> b in s
    ensures forall x: nat :: Covered(SortByOffset(s), x) <==> Covered(s, x)
    ensures forall limit :: WithinLimit(s, limit) ==> WithinLimit(SortByOffset(s), limit)
  {
    var r := SortByOffset(s);
    assert forall b :: b in r <==> b in multiset(r);
    assert forall b :: b in s <==> b in multiset(s);
  }

  /** The byte count depends only on the multiset of blocks. */
  lemma {:induction false} TotalSizePermutation(s: seq<Block>, t: seq<Block>)
    requires multiset(s) == multiset(t)
    ensures TotalSize(s) == TotalSize(t)
    decreases |s|
  {
    if |s| > 0 {
      assert s[0] in multiset(t);
      var k :| 0 <= k < |t| && t[k] == s[0];
      var t' := RemoveAt(t, k);
      assert s == [s[0]] + s[1..];
      assert multiset(s) == multiset{s[0]} + multiset(s[1..]);
      assert multiset(t') + multiset{s[0]} == multiset(t);
      assert multiset(s[1..]) == multiset(s) - multiset{s[0]};
      assert multiset(t') == multiset(t) - multiset{s[0]};
      TotalSizePermutation(s[1..], t');
      RemoveAtTotal(t, k);
    } else {
      assert |t| == |multiset(t)| == 0;
    }
  }

  /** `sort_unstable_by_key` may order blocks with equal offsets in any way.
      Whatever order it picks, coalescing the sorted list gives a list that is
      sorted, has no touching neighbours, and keeps the byte count, the
      covered bytes and any bound on the ends: every property stated of the
      insertion sort's result holds of each sorted rearrangement. */
  lemma AnySortedOrderMerges(s: seq<Block>, t: seq<Block>)
    requires |s| > 0 && |t| > 0 && SortedByOffset(t) && multiset(t) == multiset(s)
    ensures SortedByOffset(Merge(t)) && NoTouching(Merge(t))
    ensures TotalSize(Merge(t)) == TotalSize(s)
    ensures forall x: nat :: Covered(Merge(t), x) <==> Covered(s, x)
    ensures forall limit :: WithinLimit(s, limit) ==> WithinLimit(Merge(t), limit)
  {
    assert |t| == |multiset(t)| == |multiset(s)| == |s|;
    TotalSizePermutation(s, t);
    assert forall b :: b in t <==> b in multiset(t);
    assert forall b :: b in s <==> b in multiset(s);
  }

  // ---------------------------------------------------------------------
  // Coalescing

  /** Block i absorbs its successor i+1, which must start where i ends: the
      body of `merge_free_blocks`' loop. The list loses one entry but keeps
      its byte count, its covered bytes and any bound on its ends. */
  function Absorb(bs: seq<Block>, i: nat): (r: seq<Block>)
    requires i + 1 < |bs| && End(bs[i]) == bs[i + 1].0
    ensures |r| == |bs| - 1
    ensures r[..i] == bs[..i] && r[i + 1..] == bs[i + 2..]
    ensures r[i] == (bs[i].0, bs[i].1 + bs[i + 1].1)
    ensures TotalSize(r) == TotalSize(bs)
    ensures forall x: nat :: Covered(r, x) <==> Covered(bs, x)
    ensures forall limit :: WithinLimit(bs, limit) ==> WithinLimit(r, limit)
  {
    var m := (bs[i].0, bs[i].1 + bs[i + 1].1);
    var r := bs[..i] + [m] + bs[i + 2..];
    PairUnionTotal(bs, i, r);
    PairUnionCover(bs, i, r);
    r
  }

  /** A list that is bs with the touching pair i, i+1 replaced by their union
      has the same byte count. */
  lemma PairUnionTotal(bs: seq<Block>, i: nat, r: seq<Block>)
    requires i + 1 < |bs| && End(bs[i]) == bs[i + 1].0
    requires r == bs[..i] + [(bs[i].0, bs[i].1 + bs[i + 1].1)] + bs[i + 2..]
    ensures TotalSize(r) == TotalSize(bs)
  {
    var m := r[i];
    assert bs == bs[..i] + [bs[i], bs[i + 1]] + bs[i + 2..];
    TotalSizeConcat(bs[..i] + [bs[i], bs[i + 1]], bs[i + 2..]);
    TotalSizeConcat(bs[..i], [bs[i], bs[i + 1]]);
    TotalSizeConcat(bs[..i] + [m], bs[i + 2..]);
    TotalSizeConcat(bs[..i], [m]);
    assert TotalSize([bs[i], bs[i + 1]]) == bs[i].1 + bs[i + 1].1;
  }

  /** A list that is bs with the touching pair i, i+1 replaced by their union
      covers the same bytes and keeps any bound on the ends. */
  lemma PairUnionCover(bs: seq<Block>, i: nat, r: seq<Block>)
    requires i + 1 < |bs| && End(bs[i]) == bs[i + 1].0
    requires r == bs[..i] + [(bs[i].0, bs[i].1 + bs[i + 1].1)] + bs[i + 2..]
    ensures forall x: nat :: Covered(r, x) <==> Covered(bs, x)
    ensures forall limit :: WithinLimit(bs, limit) ==> WithinLimit(r, limit)
  {
    var m := r[i];
    assert forall b :: b in r ==> b == m || b in bs;
    assert End(m) == End(bs[i + 1]);
    forall x: nat
      ensures Covered(r, x) <==> Covered(bs, x)
    {
      if Covered(bs, x) {
        var b :| b in bs && InBlock(b, x);
        if b == bs[i] || b == bs[i + 1] {
          assert InBlock(m, x) && m in r;
        } else {
          assert b in r;
        }
      }
      if Covered(r, x) {
        var b :| b in r && InBlock(b, x);
        if b == m {
          if x < End(bs[i]) {
            assert InBlock(bs[i], x);
          } else {
            assert InBlock(bs[i + 1], x);
          }
        }
      }
    }
  }

  /** Absorbing a touching successor keeps the list sorted and ordered. */
  lemma AbsorbKeepsOrder(bs: seq<Block>, i: nat)
    requires i + 1 < |bs| && End(bs[i]) == bs[i + 1].0
    ensures SortedByOffset(bs) ==> SortedByOffset(Absorb(bs, i))
    ensures Ordered(bs) ==> Ordered(Absorb(bs, i))
  {
    var r := Absorb(bs, i);
    if SortedByOffset(bs) {
      forall p, q | 0 <= p < q < |r|
        ensures r[p].0 <= r[q].0
      {
        var p' := if p <= i then p else p + 1;
        var q' := if q <= i then q else q + 1;
        assert r[p].0 == bs[p'].0 && r[q].0 == bs[q'].0;
      }
    }
    if Ordered(bs) {
      forall p | 0 <= p < |r| - 1
        ensures End(r[p]) <= r[p + 1].0
      {
        if p + 1 < i {
          assert r[p] == bs[p] && r[p + 1] == bs[p + 1];
        } else if p > i {
          assert r[p] == bs[p + 1] && r[p + 1] == bs[p + 2];
        } else if p + 1 == i {
          assert r[p] == bs[p] && r[p + 1].0 == bs[i].0;
        } else {
          assert End(r[p]) == End(bs[i + 1]) && r[p + 1] == bs[i + 2];
        }
      }
    }
  }

  /** The loop of `merge_free_blocks` from index i on (src/combined_allocator.rs:127-137).
      The blocks before i, and block i with its predecessor, have already been
      found not to touch. */
  function MergeFrom(bs: seq<Block>, i: nat): (r: seq<Block>)
    requires i < |bs|
    requires NoTouching(bs[..i + 1])
    ensures 0 < |r| <= |bs|
    ensures NoTouching(r)
    ensures TotalSize(r) == TotalSize(bs)
    ensures forall x: nat :: Covered(r, x) <==> Covered(bs, x)
    ensures SortedByOffset(bs) ==> SortedByOffset(r)
    ensures Ordered(bs) ==> Ordered(r)
    ensures forall limit :: WithinLimit(bs, limit) ==> WithinLimit(r, limit)
    decreases |bs| - i
  {
    if i >= |bs| - 1 then
      assert bs[..i + 1] == bs;
      bs
    else if End(bs[i]) == bs[i + 1].0 then
      var next := Absorb(bs, i);
      AbsorbKeepsOrder(bs, i);
      assert next[..i + 1] == bs[..i] + [next[i]];
      assert forall j :: 0 <= j < i ==> bs[..i + 1][j] == bs[j];
      MergeFrom(next, i)
    else
      assert forall j :: 0 <= j < i ==> bs[..i + 1][j] == bs[j];
      MergeFrom(bs, i + 1)
  }

  /** `merge_free_blocks` on a non-empty list (the source computes `len() - 1`,
      which underflows on an empty one). */
  function Merge(bs: seq<Block>): (r: seq<Block>)
    requires |bs| > 0
    ensures 0 < |r| <= |bs|
    ensures NoTouching(r)
    ensures TotalSize(r) == TotalSize(bs)
    ensures forall x: nat :: Covered(r, x) <==> Covered(bs, x)
    ensures SortedByOffset(bs) ==> SortedByOffset(r)
    ensures Ordered(bs) ==> Separated(r)
    ensures forall limit :: WithinLimit(bs, limit) ==> WithinLimit(r, limit)
  {
    MergeFrom(bs, 0)
  }
}

=== FILE: heap.dfy ===
/** The page-based kernel heap (`CombinedAllocator`, src/combined_allocator.rs:17-243):
    pages carved from a fixed region on demand, requests routed by size to a
    page's small or large allocator, and a LIFO cache of released addresses
    in front of everything. Locks and atomics are dropped: `Alloc` and
    `Dealloc` are single-threaded steps from one allocator state to the next.
    The `Vec`s that hold the pages, the cache and each page's block lists are
    sequences whose storage lies outside the heap. In the program their
    buffers come from this very allocator, and growing one inside `alloc` or
    `dealloc` re-enters it while the cache lock is held. The model computes
    the page and cache bookkeeping those calls perform, not that re-entry. */
module Heap {
  import opened Config
  import opened Options
  import opened Bits
  import opened Bitmaps
  import opened FreeList
  import opened Pages

  datatype Allocator = Allocator(
    heapStart: nat,     // first address of the region (unused after construction)
    heapEnd: nat,       // one past the last address of the region
    heapCurrent: nat,   // where the next page will be carved
    pages: seq<Page>,   // in creation order; never shrinks
    cache: seq<nat>     // released addresses; the last one is the top of the stack
  )

  /** `CombinedAllocator::new` (src/combined_allocator.rs:141-149). */
  function New(heapStart: nat, heapSize: nat): Allocator
  {
    Allocator(heapStart, heapStart + heapSize, heapStart, [], [])
  }

  /** The `#[global_allocator]` instance (src/combined_allocator.rs:256). */
  function Global(): Allocator
  {
    New(HEAP_START, HEAP_SIZE)
  }

  /** The region bookkeeping the allocator keeps: pages are carved back to
      back from the region start, the growth cursor sits right after the last
      page and never passes the region end, and each page keeps its own invariant. */
  predicate HeapInv(h: Allocator)
  {
    && h.heapStart <= h.heapCurrent <= h.heapEnd
    && h.heapCurrent == h.heapStart + |h.pages| * PAGE_SIZE
    && forall i :: 0 <= i < |h.pages| ==>
         h.pages[i].start == h.heapStart + i * PAGE_SIZE && PageInv(h.pages[i])
  }

  /** A fresh allocator has no pages, an empty cache, its cursor at the
      region start, and keeps the invariant. */
  lemma NewKeepsInv(heapStart: nat, heapSize: nat)
    ensures var h := New(heapStart, heapSize);
      && HeapInv(h) && |h.pages| == 0 && |h.cache| == 0
      && h.heapCurrent == heapStart && h.heapEnd == heapStart + heapSize
  {
  }

  /** There is room for one more page. */
  predicate CanGrow(h: Allocator)
  {
    h.heapCurrent + PAGE_SIZE <= h.heapEnd
  }

  /** `allocate_page` (src/combined_allocator.rs:151-169): carve a page at the
      growth cursor when it fits below the region end. The new page is
      identified by its index in `pages`. */
  function AllocatePage(h: Allocator): (r: (Option<nat>, Allocator))
    ensures r.0.Some? <==> CanGrow(h)
    ensures r.0.None? ==> r.1 == h
    ensures r.0.Some? ==>
      && r.0.value == |h.pages| && |r.1.pages| == |h.pages| + 1
      && r.1.pages[..|h.pages|] == h.pages
      && r.1.pages[|h.pages|] == NewPage(h.heapCurrent)
      && r.1.heapCurrent == h.heapCurrent + PAGE_SIZE
      && r.1.heapStart == h.heapStart && r.1.heapEnd == h.heapEnd && r.1.cache == h.cache
  {
    if CanGrow(h) then
      (Some(|h.pages|),
       h.(pages := h.pages + [NewPage(h.heapCurrent)], heapCurrent := h.heapCurrent + PAGE_SIZE))
    else
      (None, h)
  }

  /** `allocate_page` keeps the heap invariant. */
  lemma AllocatePageKeepsInv(h: Allocator)
    requires HeapInv(h)
    ensures HeapInv(AllocatePage(h).1)
  {
    NewPageIsEmpty(h.heapCurrent);
  }

  /** Under the invariant, a heap of `HEAP_SIZE` bytes never holds more than
      50 pages, and once it holds 50 it cannot grow. */
  lemma PageCountBound(h: Allocator)
    requires HeapInv(h) && h.heapEnd == h.heapStart + HEAP_SIZE
    ensures |h.pages| <= HEAP_SIZE / PAGE_SIZE == 50
    ensures CanGrow(h) <==> |h.pages| < 50
  {
  }

  // ---------------------------------------------------------------------
  // Allocation

  /** Ask one page, by the size route of `alloc`: small requests (at most
      256 bytes) go to the bitmap, larger ones to the free list and cursor. */
  function PageAlloc(p: Page, size: nat, align: nat): (r: (Option<nat>, Page))
    requires 0 < align < WORD
  {
    if size <= SMALL_BLOCK_SIZE then AllocSmall(p) else AllocLarge(p, size, align)
  }

  predicate Serves(p: Page, size: nat, align: nat)
    requires 0 < align < WORD
  {
    PageAlloc(p, size, align).0.Some?
  }

  /** Index of the first page at or after `from` that serves the request, or
      |pages| if none does: the `for page in pages.iter()` scans of `alloc`. */
  function FirstServing(pages: seq<Page>, size: nat, align: nat, from: nat): (r: nat)
    requires 0 < align < WORD
    requires from <= |pages|
    ensures from <= r <= |pages|
    ensures forall j :: from <= j < r ==> !Serves(pages[j], size, align)
    ensures r < |pages| ==> Serves(pages[r], size, align)
    decreases |pages| - from
  {
    if from == |pages| || Serves(pages[from], size, align) then from
    else FirstServing(pages, size, align, from + 1)
  }

  /** The page at index j once growth is counted: an existing page, or the
      page `allocate_page` would carve next. */
  function Candidate(h: Allocator, j: nat): Page
  {
    if j < |h.pages| then h.pages[j] else NewPage(h.heapCurrent)
  }

  /** On a cache miss, page j (the page carved by growth when j == |pages|)
      answered with `a`: every earlier page declined, j's own step produced
      `a` and `r.pages[j]`, and every other page is as it was. */
  predicate AnsweredBy(h: Allocator, size: nat, align: nat, a: Option<nat>, r: Allocator, j: nat)
    requires 0 < align < WORD
  {
    && j < |r.pages| && j <= |h.pages|
    && (forall i :: 0 <= i < j ==> !Serves(h.pages[i], size, align))
    && PageAlloc(Candidate(h, j), size, align) == (a, r.pages[j])
    && (forall i :: 0 <= i < |r.pages| && i != j ==> r.pages[i] == Candidate(h, i))
  }

  /** `alloc` (src/combined_allocator.rs:171-219). A non-empty cache answers
      first, whatever the size and alignment. Otherwise the existing pages
      are asked in creation order, then at most one new page; None stands for
      the null pointer. */
  function Alloc(h: Allocator, size: nat, align: nat): (r: (Option<nat>, Allocator))
    requires 0 < align < WORD
    // cache hit: pop the most recently pushed address
    ensures |h.cache| > 0 ==>
      && r.0 == Some(h.cache[|h.cache| - 1])
      && r.1 == h.(cache := h.cache[..|h.cache| - 1])
    // cache miss: the region bounds and the cache stay, at most one page is added
    ensures |h.cache| == 0 ==>
      && r.1.cache == h.cache && r.1.heapStart == h.heapStart && r.1.heapEnd == h.heapEnd
      && |h.pages| <= |r.1.pages| <= |h.pages| + 1
      && r.1.heapCurrent == h.heapCurrent + (|r.1.pages| - |h.pages|) * PAGE_SIZE
    // growth happens exactly when no existing page serves and the region has room
    ensures |h.cache| == 0 ==>
      (|r.1.pages| == |h.pages| + 1 <==>
         (forall j :: 0 <= j < |h.pages| ==> !Serves(h.pages[j], size, align)) && CanGrow(h))
    // the answer comes from the first serving page, which is the only page that changes
    ensures |h.cache| == 0 && r.0.Some? ==> exists j :: AnsweredBy(h, size, align, r.0, r.1, j)
    // null exactly when no existing page serves and neither does a new one
    ensures |h.cache| == 0 ==>
      (r.0.None? <==>
         (forall j :: 0 <= j < |h.pages| ==> !Serves(h.pages[j], size, align))
         && !(CanGrow(h) && Serves(NewPage(h.heapCurrent), size, align)))
  {
    if |h.cache| > 0 then
      (Some(h.cache[|h.cache| - 1]), h.(cache := h.cache[..|h.cache| - 1]))
    else
      var k := FirstServing(h.pages, size, align, 0);
      if k < |h.pages| then
        var (a, p) := PageAlloc(h.pages[k], size, align);
        assert Candidate(h, k) == h.pages[k];
        assert AnsweredBy(h, size, align, a, h.(pages := h.pages[k := p]), k);
        (a, h.(pages := h.pages[k := p]))
      else
        assert forall j :: 0 <= j < |h.pages| ==> !Serves(h.pages[j], size, align);
        var (np, h1) := AllocatePage(h);
        match np
        case None => assert !CanGrow(h); (None, h)
        case Some(i) =>
          assert i == |h.pages| && h1.pages[i] == NewPage(h.heapCurrent);
          var (a, p) := PageAlloc(h1.pages[i], size, align);
          assert Candidate(h, i) == h1.pages[i];
          assert AnsweredBy(h, size, align, a, h1.(pages := h1.pages[i := p]), i);
          (a, h1.(pages := h1.pages[i := p]))
  }

  /** Size routing: on a cache miss a small request changes nothing but
      bitmaps, and a large request leaves every bitmap alone. */
  lemma AllocRoutesBySize(h: Allocator, size: nat, align: nat)
    requires 0 < align < WORD && |h.cache| == 0
    ensures var r := Alloc(h, size, align).1;
      forall i :: 0 <= i < |r.pages| ==>
        if size <= SMALL_BLOCK_SIZE then r.pages[i] == Candidate(h, i).(bitmap := r.pages[i].bitmap)
        else r.pages[i].bitmap == Candidate(h, i).bitmap
  {
    var (a, r) := Alloc(h, size, align);
    if a.Some? {
      var j := ServingPage(h, size, align);
    } else {
      forall i | 0 <= i < |r.pages|
        ensures r.pages[i] == Candidate(h, i)
      {
        if |r.pages| > |h.pages| && i == |h.pages| {
          assert r.pages[i] == PageAlloc(NewPage(h.heapCurrent), size, align).1;
        }
      }
    }
  }

  /** A page step of `alloc` keeps the page invariant. */
  lemma PageAllocKeepsInv(p: Page, size: nat, align: nat)
    requires PageInv(p) && IsPowerOfTwo(align) && align < WORD
    ensures PageInv(PageAlloc(p, size, align).1)
    ensures PageAlloc(p, size, align).1.start == p.start
  {
    if size > SMALL_BLOCK_SIZE {
      AllocLargeKeepsInv(p, size, align);
    }
  }

  /** `alloc` keeps the heap invariant. */
  lemma AllocKeepsInv(h: Allocator, size: nat, align: nat)
    requires HeapInv(h) && IsPowerOfTwo(align) && align < WORD
    ensures HeapInv(Alloc(h, size, align).1)
  {
    var (a, r) := Alloc(h, size, align);
    if |h.cache| == 0 {
      if a.Some? {
        var j := ServingPage(h, size, align);
        CandidateInv(h, j);
        PageAllocKeepsInv(Candidate(h, j), size, align);
        forall i | 0 <= i < |r.pages|
          ensures r.pages[i].start == h.heapStart + i * PAGE_SIZE && PageInv(r.pages[i])
        {
          CandidateInv(h, i);
        }
      } else {
        FailedAllocOnlyGrows(h, size, align);
        AllocatePageKeepsInv(h);
      }
    }
  }

  /** Capacity bound for the large path: with the invariant and a
      power-of-two alignment, a large block handed out on a cache miss lies
      wholly inside one page of the allocator, hence inside the region. */
  lemma AllocLargeInsideRegion(h: Allocator, size: nat, align: nat)
    requires HeapInv(h) && IsPowerOfTwo(align) && align < WORD
    requires |h.cache| == 0 && size > SMALL_BLOCK_SIZE
    ensures var (a, r) := Alloc(h, size, align);
      a.Some? ==>
        && (exists j :: 0 <= j < |r.pages| && r.pages[j].start <= a.value
              && a.value + size <= r.pages[j].start + PAGE_SIZE)
        && h.heapStart <= a.value && a.value + size <= h.heapEnd
  {
    var (a, r) := Alloc(h, size, align);
    if a.Some? {
      var j := ServingPage(h, size, align);
      NewPageIsEmpty(h.heapCurrent);
      var p := Candidate(h, j);
      assert PageInv(p) && p.start == h.heapStart + j * PAGE_SIZE;
      assert PageAlloc(p, size, align) == AllocLarge(p, size, align);
      AllocLargeAligned(p, size, align);
      AllocKeepsInv(h, size, align);
      assert r.pages[j].start == p.start;
    }
  }

  /** Alignment of the address, large path: when the region starts on a page
      boundary and the alignment is a power of two no larger than a page, a
      large block handed out on a cache miss is `align`-aligned as an address,
      not just as an offset within its page. */
  lemma LargeAddressAligned(h: Allocator, size: nat, align: nat)
    requires HeapInv(h) && IsPowerOfTwo(align) && align <= PAGE_SIZE
    requires h.heapStart % PAGE_SIZE == 0
    requires |h.cache| == 0 && size > SMALL_BLOCK_SIZE
    ensures var a := Alloc(h, size, align).0;
      a.Some? ==> a.value % align == 0
  {
    var (a, r) := Alloc(h, size, align);
    if a.Some? {
      var j := ServingPage(h, size, align);
      AnswerAligned(h, size, align, a, r, j);
    }
  }

  /** The step of `LargeAddressAligned` once the answering page is known. */
  lemma AnswerAligned(h: Allocator, size: nat, align: nat, a: Option<nat>, r: Allocator, j: nat)
    requires HeapInv(h) && IsPowerOfTwo(align) && align <= PAGE_SIZE
    requires h.heapStart % PAGE_SIZE == 0 && size > SMALL_BLOCK_SIZE
    requires AnsweredBy(h, size, align, a, r, j)
    ensures a.Some? ==> a.value % align == 0
  {
    var p := Candidate(h, j);
    assert PageAlloc(p, size, align).0 == a;
    CandidateInv(h, j);
    SlotOnPage(h.heapStart, j);
    assert PageInv(p) && p.start % PAGE_SIZE == 0;
    assert PageAlloc(p, size, align) == AllocLarge(p, size, align);
    AllocLargeAddressAligned(p, size, align);
  }

  /** The global heap starts on a page boundary, so `LargeAddressAligned`
      applies to it. */
  lemma GlobalStartsOnPage()
    ensures Global().heapStart % PAGE_SIZE == 0
    ensures HeapInv(Global()) && |Global().cache| == 0
  {
  }

  /** Every candidate page, existing or next to be carved, keeps the page
      invariant and sits at its slot of the region. */
  lemma CandidateInv(h: Allocator, j: nat)
    requires HeapInv(h) && j <= |h.pages|
    ensures PageInv(Candidate(h, j)) && Candidate(h, j).start == h.heapStart + j * PAGE_SIZE
  {
    NewPageIsEmpty(h.heapCurrent);
  }

  /** The page an answered cache miss came from. */
  lemma ServingPage(h: Allocator, size: nat, align: nat) returns (j: nat)
    requires 0 < align < WORD && |h.cache| == 0 && Alloc(h, size, align).0.Some?
    ensures var (a, r) := Alloc(h, size, align);
      AnsweredBy(h, size, align, a, r, j)
  {
    var (a, r) := Alloc(h, size, align);
    j :| AnsweredBy(h, size, align, a, r, j);
  }

  // ---------------------------------------------------------------------
  // Deallocation

  /** Index of the first page at or after `from` that owns `addr`, or |pages|. */
  function Owner(pages: seq<Page>, addr: nat, from: nat): (r: nat)
    requires from <= |pages|
    ensures from <= r <= |pages|
    ensures forall j :: from <= j < r ==> !Owns(pages[j], addr)
    ensures r < |pages| ==> Owns(pages[r], addr)
    decreases |pages| - from
  {
    if from == |pages| || Owns(pages[from], addr) then from
    else Owner(pages, addr, from + 1)
  }

  /** `dealloc` (src/combined_allocator.rs:221-242). Sizes up to
      `MAX_CACHEABLE_SIZE` only push the address on the cache. Larger sizes
      release the block in the page that owns the address and then push it;
      when no page owns it nothing changes. */
  function Dealloc(h: Allocator, addr: nat, size: nat): (r: Allocator)
    ensures r.heapStart == h.heapStart && r.heapEnd == h.heapEnd && r.heapCurrent == h.heapCurrent
    ensures size <= MAX_CACHEABLE_SIZE ==> r.pages == h.pages && r.cache == h.cache + [addr]
    ensures size > MAX_CACHEABLE_SIZE ==>
      if forall j :: 0 <= j < |h.pages| ==> !Owns(h.pages[j], addr) then r == h
      else exists k :: (
        && 0 <= k < |h.pages| && Owns(h.pages[k], addr)
        && (forall j :: 0 <= j < k ==> !Owns(h.pages[j], addr))
        && r.pages == h.pages[k := DeallocLarge(h.pages[k], addr, size)]
        && r.cache == h.cache + [addr])
  {
    if size <= MAX_CACHEABLE_SIZE then
      h.(cache := h.cache + [addr])
    else
      var k := Owner(h.pages, addr, 0);
      if k == |h.pages| then h
      else if size <= SMALL_BLOCK_SIZE then
        // `dealloc_small` (src/combined_allocator.rs:233-234): unreachable,
        // since every size that gets here exceeds MAX_CACHEABLE_SIZE
        assert false; h
      else
        h.(pages := h.pages[k := DeallocLarge(h.pages[k], addr, size)],
           cache := h.cache + [addr])
  }

  /** `dealloc` never touches a page's bitmap: small blocks are never given
      back to page bookkeeping, and the page count never changes. */
  lemma DeallocNeverReleasesSmall(h: Allocator, addr: nat, size: nat)
    ensures |Dealloc(h, addr, size).pages| == |h.pages|
    ensures forall i :: 0 <= i < |h.pages| ==> Dealloc(h, addr, size).pages[i].bitmap == h.pages[i].bitmap
  {
  }

  /** Under the invariant, pages are disjoint: at most one page owns an address. */
  lemma OwnerUnique(h: Allocator, addr: nat, i: nat, j: nat)
    requires HeapInv(h) && i < |h.pages| && j < |h.pages|
    requires Owns(h.pages[i], addr) && Owns(h.pages[j], addr)
    ensures i == j
  {
  }

  /** `dealloc` keeps the heap invariant. */
  lemma DeallocKeepsInv(h: Allocator, addr: nat, size: nat)
    requires HeapInv(h)
    ensures HeapInv(Dealloc(h, addr, size))
  {
    if size > MAX_CACHEABLE_SIZE {
      var k := Owner(h.pages, addr, 0);
      if k < |h.pages| {
        DeallocLargeKeepsInv(h.pages[k], addr, size);
      }
    }
  }

  /** A large block handed out on a cache miss is recorded, as
      `(offset, size)`, in the page that owns its address. */
  lemma AllocRecordsLarge(h: Allocator, size: nat, align: nat) returns (j: nat)
    requires HeapInv(h) && IsPowerOfTwo(align) && align < WORD
    requires |h.cache| == 0 && size > SMALL_BLOCK_SIZE
    requires Alloc(h, size, align).0.Some?
    ensures var (a, h1) := Alloc(h, size, align);
      && j < |h1.pages| && Owns(h1.pages[j], a.value)
      && (a.value - h1.pages[j].start, size) in h1.pages[j].allocations
  {
    j := ServingPage(h, size, align);
    var p := Candidate(h, j);
    CandidateInv(h, j);
    assert PageAlloc(p, size, align) == AllocLarge(p, size, align);
    AllocLargeOwned(p, size, align);
  }

  /** Releasing a recorded large block with its own size frees its bytes in
      the owning page and caches its address. */
  lemma DeallocReleasesRecorded(h: Allocator, addr: nat, size: nat, j: nat)
    requires HeapInv(h) && size > MAX_CACHEABLE_SIZE
    requires j < |h.pages| && Owns(h.pages[j], addr)
    requires (addr - h.pages[j].start, size) in h.pages[j].allocations
    ensures var h2 := Dealloc(h, addr, size);
      && h2.cache == h.cache + [addr]
      && j < |h2.pages| && h2.pages[j].start == h.pages[j].start
      && forall x: nat :: addr - h.pages[j].start <= x < addr - h.pages[j].start + size
           ==> Covered(h2.pages[j].freeBlocks, x)
  {
    var k := Owner(h.pages, addr, 0);
    if k != j {
      OwnerUnique(h, addr, k, j);
    }
    assert k == j && h.pages[j].start <= addr;
    var p2 := DeallocLarge(h.pages[j], addr, size);
    var h2 := Dealloc(h, addr, size);
    assert h2.pages == h.pages[j := p2] && h2.cache == h.cache + [addr];
    assert h2.pages[j] == p2;
    assert forall x: nat :: InBlock((addr - h.pages[j].start, size), x) ==> Covered(p2.freeBlocks, x);
  }

  /** Round trip through the page bookkeeping: releasing a block of more than
      1024 bytes just handed out on a cache miss returns its bytes to the free list of the
      page it came from, and the next `alloc`, of any size and alignment, gets
      the same address back from the cache. */
  lemma AllocDeallocRoundTrip(h: Allocator, size: nat, align: nat, addr: nat, h1: Allocator,
                              size2: nat, align2: nat)
    requires HeapInv(h) && IsPowerOfTwo(align) && align < WORD && 0 < align2 < WORD
    requires |h.cache| == 0 && size > MAX_CACHEABLE_SIZE
    requires Alloc(h, size, align) == (Some(addr), h1)
    ensures var h2 := Dealloc(h1, addr, size);
      && h2.cache == [addr]
      && (exists j :: 0 <= j < |h2.pages| && Owns(h2.pages[j], addr)
            && forall x: nat :: addr - h2.pages[j].start <= x < addr - h2.pages[j].start + size
                 ==> Covered(h2.pages[j].freeBlocks, x))
      && Alloc(h2, size2, align2) == (Some(addr), h2.(cache := []))
  {
    var j := AllocRecordsLarge(h, size, align);
    AllocKeepsInv(h, size, align);
    DeallocReleasesRecorded(h1, addr, size, j);
    var h2 := Dealloc(h1, addr, size);
    assert h2.cache == [addr];
    assert Owns(h2.pages[j], addr);
  }

  /** A block of 257 to 1024 bytes takes the large path in `alloc`, but
      `dealloc` only caches its address: its record stays in the page's
      allocations and its bytes never reach the free list. */
  lemma MidSizeBlockStaysRecorded(h: Allocator, size: nat, align: nat)
    requires HeapInv(h) && IsPowerOfTwo(align) && align < WORD
    requires |h.cache| == 0 && SMALL_BLOCK_SIZE < size <= MAX_CACHEABLE_SIZE
    requires Alloc(h, size, align).0.Some?
    ensures var (a, h1) := Alloc(h, size, align);
            var h2 := Dealloc(h1, a.value, size);
      && h2.pages == h1.pages && h2.cache == [a.value]
      && exists j :: 0 <= j < |h2.pages| && Owns(h2.pages[j], a.value)
           && (a.value - h2.pages[j].start, size) in h2.pages[j].allocations
  {
    var j := AllocRecordsLarge(h, size, align);
    var (a, h1) := Alloc(h, size, align);
    assert h1.cache == [];
    var h2 := Dealloc(h1, a.value, size);
    assert h2.pages == h1.pages;
    assert Owns(h2.pages[j], a.value);
  }

  /** The heap after the first `alloc(4096, 8)` of src/main.rs: one page,
      filled by the bump cursor, holding the record `(0, 4096)`. */
  function AfterFirstAlloc(): Allocator
  {
    Global().(pages := [Page(HEAP_START, PAGE_SIZE, [(0, PAGE_SIZE)], [], Empty())],
              heapCurrent := HEAP_START + PAGE_SIZE)
  }

  /** The heap after the matching `dealloc(ptr1, 4096)`: the page's bytes
      are one free block and the address is cached. */
  function AfterFirstFree(): Allocator
  {
    Global().(pages := [Page(HEAP_START, PAGE_SIZE, [], [(0, PAGE_SIZE)], Empty())],
              heapCurrent := HEAP_START + PAGE_SIZE, cache := [HEAP_START])
  }

  lemma FirstAllocStep()
    ensures Alloc(Global(), 4096, 8) == (Some(HEAP_START), AfterFirstAlloc())
  {
    var h0 := Global();
    AlignUpIsLeastMultiple(0, 8);
    var p0 := NewPage(HEAP_START);
    assert p0.currentOffset == 0 && p0.freeBlocks == [] && p0.allocations == [];
    assert FirstFit(p0.freeBlocks, 4096, 8, 0) == 0;
    var p1 := Page(HEAP_START, PAGE_SIZE, [(0, PAGE_SIZE)], [], Empty());
    assert 0 % 8 == 0;
    assert AlignUp(p0.currentOffset, 8) == 0;
    var r := AllocLarge(p0, 4096, 8);
    assert r.0.Some?;
    assert r.0 == Some(HEAP_START);
    assert p0.allocations + [(0, PAGE_SIZE)] == [(0, PAGE_SIZE)];
    assert r.1.allocations == [(0, PAGE_SIZE)];
    assert r.1.currentOffset == PAGE_SIZE && r.1.freeBlocks == [];
    assert r.1 == p1;
    assert PageAlloc(p0, 4096, 8) == (Some(HEAP_START), p1);
    assert FirstServing(h0.pages, 4096, 8, 0) == 0;
    var g := h0.(pages := [p0], heapCurrent := HEAP_START + PAGE_SIZE);
    assert AllocatePage(h0) == (Some(0), g);
    assert g.(pages := g.pages[0 := p1]) == AfterFirstAlloc();
  }

  lemma FirstFreeStep()
    ensures Dealloc(AfterFirstAlloc(), HEAP_START, 4096) == AfterFirstFree()
  {
    var h1 := AfterFirstAlloc();
    var p1 := h1.pages[0];
    var rec := (0, PAGE_SIZE);
    assert Owns(p1, HEAP_START);
    assert Owner(h1.pages, HEAP_START, 0) == 0;
    assert IndexOf(p1.allocations, rec) == 0;
    assert RemoveAt(p1.allocations, 0) == [];
    assert p1.freeBlocks + [rec] == [rec];
    assert SortByOffset([rec]) == [rec];
    assert Merge([rec]) == [rec];
    var p2 := DeallocLarge(p1, HEAP_START, 4096);
    assert p2.allocations == [] && p2.freeBlocks == [rec];
    assert p2 == AfterFirstFree().pages[0];
    assert Dealloc(h1, HEAP_START, 4096) == h1.(pages := [p2], cache := [HEAP_START]);
  }

  lemma SecondFreeStep()
    ensures var h3 := AfterFirstFree().(cache := []);
      Dealloc(h3, HEAP_START, 1890) == AfterFirstFree()
  {
    var h3 := AfterFirstFree().(cache := []);
    assert Owner(h3.pages, HEAP_START, 0) == 0;
    assert IndexOf(h3.pages[0].allocations, (0, 1890)) == 0;
    assert DeallocLarge(h3.pages[0], HEAP_START, 1890) == h3.pages[0];
  }

  /** The kernel's own calls (src/main.rs:58-74), computed on the page and
      cache bookkeeping of the global allocator with its `Vec` storage taken
      as external (in the program the first `pages.push` re-enters `alloc`
      under the cache lock, so the first call does not return):
      `alloc(4096, 8)` grows one page and takes all of it by bumping;
      `dealloc(ptr1, 4096)` frees it into the page's free list and caches the
      address; `alloc(1890, 8)` is then answered from the cache with the same
      address; `dealloc(ptr2, 1890)` finds no `(0, 1890)` record, so the page
      stays as it was and the heap is back where the first `dealloc` left it. */
  lemma KernelMainScenario()
    ensures Alloc(Global(), 4096, 8) == (Some(HEAP_START), AfterFirstAlloc())
    ensures Dealloc(AfterFirstAlloc(), HEAP_START, 4096) == AfterFirstFree()
    ensures Alloc(AfterFirstFree(), 1890, 8) == (Some(HEAP_START), AfterFirstFree().(cache := []))
    ensures Dealloc(AfterFirstFree().(cache := []), HEAP_START, 1890) == AfterFirstFree()
  {
    FirstAllocStep();
    FirstFreeStep();
    SecondFreeStep();
  }

  /** Two 128-byte requests on the fresh global heap take the first two
      bitmap slots of a new page: `base` and `base + 256` (on the bookkeeping,
      with the `Vec` storage external to the heap). */
  lemma TwoSmallAllocations()
    ensures var (a1, h1) := Alloc(Global(), 128, 1);
            var (a2, h2) := Alloc(h1, 128, 1);
      a1 == Some(HEAP_START) && a2 == Some(HEAP_START + SMALL_BLOCK_SIZE) && |h2.pages| == 1
  {
    var p0 := NewPage(HEAP_START);
    assert FirstClear(p0.bitmap, 0) == 0;
    var p1 := p0.(bitmap := Empty()[0 := true]);
    assert AllocSmall(p0) == (Some(HEAP_START), p1);
    assert FirstClear(p1.bitmap, 1) == 1;
    assert AllocSmall(p1).0 == Some(HEAP_START + SMALL_BLOCK_SIZE);
  }

  /** Only the large path honours `align`. A small request takes the lowest
      free slot whatever the alignment, so `alloc(8, 512)` after `alloc(8, 8)`
      returns `base + 256`, which is not 512-aligned; and a cached address is
      handed to any later request, so after `dealloc(base + 256, 8)` a
      2048-byte request with alignment 512 gets `base + 256` as well. */
  lemma AlignIgnoredOffLargePath()
    ensures var (a1, h1) := Alloc(Global(), 8, 8);
            var (a2, h2) := Alloc(h1, 8, 512);
            var h3 := Dealloc(h2, HEAP_START + SMALL_BLOCK_SIZE, 8);
      && a1 == Some(HEAP_START)
      && a2 == Some(HEAP_START + SMALL_BLOCK_SIZE)
      && (HEAP_START + SMALL_BLOCK_SIZE) % 512 == 256
      && Alloc(h3, 2048, 512).0 == Some(HEAP_START + SMALL_BLOCK_SIZE)
  {
    var p0 := NewPage(HEAP_START);
    assert FirstClear(p0.bitmap, 0) == 0;
    var p1 := p0.(bitmap := Empty()[0 := true]);
    assert AllocSmall(p0) == (Some(HEAP_START), p1);
    assert FirstClear(p1.bitmap, 1) == 1;
    assert AllocSmall(p1).0 == Some(HEAP_START + SMALL_BLOCK_SIZE);
  }

  /** Bitmap slots and the bump cursor both count from the page's start, so
      they hand out the same bytes twice: on the fresh global heap
      `alloc(128, 8)` takes slot 0 at `base`, and the following
      `alloc(512, 8)` bumps the cursor from offset 0 and returns `base` too,
      while slot 0 stays taken. */
  lemma SmallAndLargeShareBytes()
    ensures var (a1, h1) := Alloc(Global(), 128, 8);
            var (a2, h2) := Alloc(h1, 512, 8);
      && a1 == Some(HEAP_START) && a2 == Some(HEAP_START)
      && |h2.pages| == 1 && h2.pages[0].bitmap[0]
      && (0, 512) in h2.pages[0].allocations
  {
    var p1 := NewPage(HEAP_START).(bitmap := Empty()[0 := true]);
    var h1 := Global().(pages := [p1], heapCurrent := HEAP_START + PAGE_SIZE);
    FirstSmallStep(p1, h1);
    LargeOverFirstSlot(p1, h1);
  }

  /** The first step of `SmallAndLargeShareBytes`: slot 0 of a new page. */
  lemma FirstSmallStep(p1: Page, h1: Allocator)
    requires p1 == NewPage(HEAP_START).(bitmap := Empty()[0 := true])
    requires h1 == Global().(pages := [p1], heapCurrent := HEAP_START + PAGE_SIZE)
    ensures Alloc(Global(), 128, 8) == (Some(HEAP_START), h1)
  {
    var p0 := NewPage(HEAP_START);
    assert FirstClear(p0.bitmap, 0) == 0;
    assert AllocSmall(p0) == (Some(HEAP_START), p1);
    assert PageAlloc(p0, 128, 8) == (Some(HEAP_START), p1);
    var h0 := Global();
    assert FirstServing(h0.pages, 128, 8, 0) == 0;
    var g := h0.(pages := [p0], heapCurrent := HEAP_START + PAGE_SIZE);
    assert AllocatePage(h0) == (Some(0), g);
    assert g.pages[0 := p1] == [p1];
    assert g.(pages := g.pages[0 := p1]) == h1;
  }

  /** The second step of `SmallAndLargeShareBytes`: the bump cursor still
      starts at offset 0 of the page whose slot 0 is taken. */
  lemma LargeOverFirstSlot(p1: Page, h1: Allocator)
    requires p1 == NewPage(HEAP_START).(bitmap := Empty()[0 := true])
    requires h1 == Global().(pages := [p1], heapCurrent := HEAP_START + PAGE_SIZE)
    ensures var (a2, h2) := Alloc(h1, 512, 8);
      && a2 == Some(HEAP_START)
      && |h2.pages| == 1 && h2.pages[0].bitmap[0]
      && (0, 512) in h2.pages[0].allocations
  {
    AlignUpIsLeastMultiple(0, 8);
    assert 0 % 8 == 0;
    assert FirstFit(p1.freeBlocks, 512, 8, 0) == 0;
    var r := AllocLarge(p1, 512, 8);
    assert r.0 == Some(HEAP_START);
    assert r.1.allocations == [(0, 512)] && r.1.bitmap == p1.bitmap;
    assert PageAlloc(p1, 512, 8) == r;
    assert FirstServing(h1.pages, 512, 8, 0) == 0;
    assert h1.pages[0 := r.1] == [r.1];
  }

  /** `dealloc` of a block over 1024 bytes both returns its bytes to the free
      list and caches its address, so the block is handed out twice: after
      the first `dealloc` of src/main.rs two `alloc(1890, 8)` calls both
      return `base`, the first from the cache and the second from the free
      list. */
  lemma ReleasedBlockHandedOutTwice()
    ensures var (a1, h1) := Alloc(AfterFirstFree(), 1890, 8);
            var (a2, h2) := Alloc(h1, 1890, 8);
      a1 == Some(HEAP_START) && a2 == Some(HEAP_START)
  {
    AlignUpIsLeastMultiple(0, 8);
    assert 0 % 8 == 0;
    var h1 := AfterFirstFree().(cache := []);
    assert Alloc(AfterFirstFree(), 1890, 8) == (Some(HEAP_START), h1);
    var p := h1.pages[0];
    assert Fits(p.freeBlocks[0], 1890, 8);
    assert FirstFit(p.freeBlocks, 1890, 8, 0) == 0;
    var r := AllocLarge(p, 1890, 8);
    assert r.0 == Some(HEAP_START);
    assert PageAlloc(p, 1890, 8) == r;
    assert FirstServing(h1.pages, 1890, 8, 0) == 0;
  }

  /** A request larger than a page still carves a page, then fails: the new
      page stays behind, empty. */
  lemma OversizedRequestStillGrows()
    ensures Alloc(Global(), 5000, 8) ==
      (None, Global().(pages := [NewPage(HEAP_START)], heapCurrent := HEAP_START + PAGE_SIZE))
  {
    AlignUpIsLeastMultiple(0, 8);
    var h0 := Global();
    var p0 := NewPage(HEAP_START);
    assert FirstFit(p0.freeBlocks, 5000, 8, 0) == 0;
    assert AllocLarge(p0, 5000, 8) == (None, p0);
    assert FirstServing(h0.pages, 5000, 8, 0) == 0;
    assert AllocatePage(h0) == (Some(0), h0.(pages := [p0], heapCurrent := HEAP_START + PAGE_SIZE));
    assert PageAlloc(p0, 5000, 8) == (None, p0);
    var g := AllocatePage(h0).1;
    assert |h0.cache| == 0 && g.pages[0] == p0 && g.pages[0 := p0] == g.pages;
  }

  /** A failed `alloc` changes nothing but, possibly, the page it carved. */
  lemma FailedAllocOnlyGrows(h: Allocator, size: nat, align: nat)
    requires 0 < align < WORD && |h.cache| == 0
    requires Alloc(h, size, align).0.None?
    ensures Alloc(h, size, align).1 == h || Alloc(h, size, align).1 == AllocatePage(h).1
  {
    var k := FirstServing(h.pages, size, align, 0);
    if CanGrow(h) {
      var p := NewPage(h.heapCurrent);
      assert !Serves(p, size, align);
      assert PageAlloc(p, size, align).1 == p;
    }
  }
}

=== FILE: options.dfy ===
/** The optional value the allocator returns when a request cannot be served. */
module Options {

  datatype Option<+T> = None | Some(value: T)
}

=== FILE: page.dfy ===
/** One heap page (`struct Page`, src/combined_allocator.rs:25-138): a bitmap
    allocator for small blocks and a first-fit free list with a bump cursor
    for large blocks. Locks and atomics are dropped: every operation is a pure
    step from one page state to the next. */
module Pages {
  import opened Config
  import opened Options
  import opened Bits
  import opened Bitmaps
  import opened FreeList

  datatype Page = Page(
    start: nat,               // address of the page's first byte
    currentOffset: nat,       // bump cursor, an offset from `start`
    allocations: seq<Block>,  // live large blocks, in the order they were made
    freeBlocks: seq<Block>,   // released large blocks
    bitmap: Bitmap            // small-block slot occupancy
  )

  /** `Page::new` (src/combined_allocator.rs:34-42). */
  function NewPage(start: nat): Page
  {
    Page(start, 0, [], [], Empty())
  }

  /** The bookkeeping bounds a page keeps: the bump cursor stays inside the
      page, and every large block, live or free, lies below the cursor. */
  predicate PageInv(p: Page)
  {
    && p.currentOffset <= PAGE_SIZE
    && WithinLimit(p.allocations, p.currentOffset)
    && WithinLimit(p.freeBlocks, p.currentOffset)
  }

  /** A new page is empty and satisfies the page invariant. */
  lemma NewPageIsEmpty(start: nat)
    ensures PageInv(NewPage(start))
    ensures NewPage(start).start == start
    ensures NewPage(start).currentOffset == 0
    ensures NewPage(start).allocations == [] && NewPage(start).freeBlocks == []
    ensures Count(NewPage(start).bitmap) == 0
    ensures forall x: nat :: !Covered(NewPage(start).freeBlocks, x)
  {
    CountPacked(Empty(), 0);
  }

  // ---------------------------------------------------------------------
  // Small blocks

  /** Address of small-block slot i. */
  function SlotAddress(p: Page, i: nat): nat
  {
    p.start + i * SMALL_BLOCK_SIZE
  }

  /** `alloc_small` (src/combined_allocator.rs:58-71): occupy the lowest free
      slot i and return `start + i * 256`, or None when all 128 slots are taken.
      Only the bitmap changes. */
  function AllocSmall(p: Page): (r: (Option<nat>, Page))
    ensures r.1 == p.(bitmap := r.1.bitmap)
    ensures r.0.None? <==> forall j :: 0 <= j < BITMAP_BITS ==> p.bitmap[j]
    ensures r.0.None? ==> r.1 == p
    ensures r.0.Some? ==> exists i ::
      && 0 <= i < BITMAP_BITS
      && r.0.value == SlotAddress(p, i)
      && !p.bitmap[i]
      && (forall j :: 0 <= j < i ==> p.bitmap[j])
      && r.1.bitmap == p.bitmap[i := true]
    ensures r.0.Some? ==> Count(r.1.bitmap) == Count(p.bitmap) + 1
  {
    var (slot, b) := TakeLowestClear(p.bitmap);
    match slot
    case None => (None, p)
    case Some(i) => (Some(SlotAddress(p, i)), p.(bitmap := b))
  }

  /** The bitmap has 128 slots of 256 bytes, 32 KiB, but a page has 4 KiB:
      once the first 16 slots are taken, `alloc_small` hands out an address
      at or past the end of its page. */
  lemma AllocSmallMayLeavePage(start: nat)
    ensures var p := NewPage(start).(bitmap := seq(128, i => i < 16));
            AllocSmall(p).0 == Some(start + PAGE_SIZE)
  {
    var p := NewPage(start).(bitmap := seq(128, i => i < 16));
    assert FirstClear(p.bitmap, 16) == 16;
    var r := AllocSmall(p);
    assert r.0.Some?;
    var i :| 0 <= i < BITMAP_BITS && r.0.value == SlotAddress(p, i) && !p.bitmap[i]
      && (forall j :: 0 <= j < i ==> p.bitmap[j]);
    assert i == 16;
  }

  /** `dealloc_small` (src/combined_allocator.rs:73-80): clear the bit of the
      slot holding `ptr`, then compact. The source subtracts `start` (which
      must not underflow) and shifts a `u128` by the slot index (which must be
      below 128). Only the bitmap changes. */
  function DeallocSmall(p: Page, ptr: nat): (r: Page)
    requires p.start <= ptr && (ptr - p.start) / SMALL_BLOCK_SIZE < BITMAP_BITS
    ensures r == p.(bitmap := r.bitmap)
    ensures var i := (ptr - p.start) / SMALL_BLOCK_SIZE;
            Count(r.bitmap) == Count(p.bitmap) - (if p.bitmap[i] then 1 else 0)
    ensures IsPacked(r.bitmap, Count(r.bitmap))
  {
    p.(bitmap := ReleaseSlot(p.bitmap, (ptr - p.start) / SMALL_BLOCK_SIZE))
  }

  // ---------------------------------------------------------------------
  // Large blocks

  /** Free block b can hold `size` bytes at its first `align`-aligned offset
      (the test of src/combined_allocator.rs:86-87). */
  predicate Fits(b: Block, size: nat, align: nat)
    requires 0 < align < WORD
  {
    AlignUp(b.0, align) + size <= End(b)
  }

  /** Index of the first block at or after `from` that fits, or |bs| if none does. */
  function FirstFit(bs: seq<Block>, size: nat, align: nat, from: nat): (r: nat)
    requires 0 < align < WORD
    requires from <= |bs|
    ensures from <= r <= |bs|
    ensures forall j :: from <= j < r ==> !Fits(bs[j], size, align)
    ensures r < |bs| ==> Fits(bs[r], size, align)
    decreases |bs| - from
  {
    if from == |bs| || Fits(bs[from], size, align) then from
    else FirstFit(bs, size, align, from + 1)
  }

  /** The fragments of free block b left over once [aligned, aligned+size) is
      cut out of it: the prefix when alignment skipped bytes, then the suffix
      when the allocation does not reach the block's end. */
  function Fragments(b: Block, aligned: nat, size: nat): seq<Block>
  {
    (if aligned > b.0 then [(b.0, aligned - b.0)] else [])
    + (if aligned + size < End(b) then [(aligned + size, End(b) - (aligned + size))] else [])
  }

  /** `alloc_large` (src/combined_allocator.rs:82-114). First fit over the
      free list; failing that, bump the cursor. Either way the allocation is
      recorded at the end of `allocations`. */
  function AllocLarge(p: Page, size: nat, align: nat): (r: (Option<nat>, Page))
    requires 0 < align < WORD
    ensures r.1.start == p.start && r.1.bitmap == p.bitmap
    ensures r.0.None? ==> r.1 == p
    ensures r.0.Some? ==>
      && p.start <= r.0.value
      && r.1.allocations == p.allocations + [(r.0.value - p.start, size)]
    ensures var k := FirstFit(p.freeBlocks, size, align, 0);
      if k < |p.freeBlocks| then
        // free-list path: never fails, never moves the cursor
        && r.0 == Some(p.start + AlignUp(p.freeBlocks[k].0, align))
        && r.1.currentOffset == p.currentOffset
      else
        // bump path: succeeds exactly when the aligned cursor leaves room
        && (r.0.Some? <==> AlignUp(p.currentOffset, align) + size <= PAGE_SIZE)
        && r.1.freeBlocks == p.freeBlocks
        && (r.0.Some? ==>
              && r.0.value == p.start + AlignUp(p.currentOffset, align)
              && r.1.currentOffset == r.0.value - p.start + size)
  {
    var k := FirstFit(p.freeBlocks, size, align, 0);
    if k < |p.freeBlocks| then
      var b := p.freeBlocks[k];
      var aligned := AlignUp(b.0, align);
      (Some(p.start + aligned),
       p.(freeBlocks := RemoveAt(p.freeBlocks, k) + Fragments(b, aligned, size),
          allocations := p.allocations + [(aligned, size)]))
    else
      var aligned := AlignUp(p.currentOffset, align);
      if aligned + size <= PAGE_SIZE then
        (Some(p.start + aligned),
         p.(currentOffset := aligned + size,
            allocations := p.allocations + [(aligned, size)]))
      else
        (None, p)
  }

  /** Cutting [a, a+size) out of block b, with b.0 <= a and a+size <= End(b),
      leaves fragments that cover exactly the rest of b, hold exactly the
      remaining bytes, and end inside b. */
  lemma FragmentsTile(b: Block, a: nat, size: nat)
    requires b.0 <= a && a + size <= End(b)
    ensures TotalSize(Fragments(b, a, size)) + size == b.1
    ensures forall x: nat :: Covered(Fragments(b, a, size), x) <==> InBlock(b, x) && !(a <= x < a + size)
    ensures WithinLimit(Fragments(b, a, size), End(b))
  {
    var pre := if a > b.0 then [(b.0, a - b.0)] else [];
    var suf := if a + size < End(b) then [(a + size, End(b) - (a + size))] else [];
    assert Fragments(b, a, size) == pre + suf;
    TotalSizeConcat(pre, suf);
    forall x: nat
      ensures Covered(pre + suf, x) <==> InBlock(b, x) && !(a <= x < a + size)
    {
      if InBlock(b, x) && !(a <= x < a + size) {
        if x < a {
          assert pre[0] in pre + suf && InBlock(pre[0], x);
        } else {
          assert suf[0] in pre + suf && InBlock(suf[0], x);
        }
      }
    }
  }

  /** On the free-list path the two fragments and the allocation tile the
      chosen block exactly: the byte count drops by `size`, the covered bytes
      lose exactly the allocated range, the other free blocks keep their
      order, and the fragments are appended unsorted at the end. */
  lemma AllocLargeTilesBlock(p: Page, size: nat, align: nat)
    requires PageInv(p)
    requires IsPowerOfTwo(align) && align < WORD
    requires FirstFit(p.freeBlocks, size, align, 0) < |p.freeBlocks|
    ensures var k := FirstFit(p.freeBlocks, size, align, 0);
            var b := p.freeBlocks[k];
            var a := AlignUp(b.0, align);
            var r := AllocLarge(p, size, align).1;
      && |p.freeBlocks| - 1 <= |r.freeBlocks| <= |p.freeBlocks| + 1
      && r.freeBlocks[..|p.freeBlocks| - 1] == RemoveAt(p.freeBlocks, k)
      && TotalSize(r.freeBlocks) + size == TotalSize(p.freeBlocks)
      && (forall x: nat :: Covered(r.freeBlocks, x) <==>
            Covered(RemoveAt(p.freeBlocks, k), x) || (InBlock(b, x) && !(a <= x < a + size)))
  {
    var k := FirstFit(p.freeBlocks, size, align, 0);
    var b := p.freeBlocks[k];
    assert b in p.freeBlocks;
    PowerOfTwoBelowWord(align);
    AlignUpIsLeastMultiple(b.0, align);
    var a := AlignUp(b.0, align);
    var rest := RemoveAt(p.freeBlocks, k);
    var frags := Fragments(b, a, size);
    var nb := rest + frags;
    assert AllocLarge(p, size, align).1.freeBlocks == nb;
    assert nb[..|rest|] == rest;
    FragmentsTile(b, a, size);
    RemoveAtTotal(p.freeBlocks, k);
    TotalSizeConcat(rest, frags);
    forall x: nat
      ensures Covered(nb, x) <==> Covered(rest, x) || Covered(frags, x)
    {
      if Covered(nb, x) {
        var c :| c in nb && InBlock(c, x);
        if c in rest { } else { assert c in frags; }
      }
    }
  }

  /** With a power-of-two alignment, a large allocation from a page that keeps
      its invariant starts at an `align`-aligned offset no lower than the block
      or cursor it came from, and ends inside the page. */
  lemma AllocLargeAligned(p: Page, size: nat, align: nat)
    requires PageInv(p)
    requires IsPowerOfTwo(align) && align < WORD
    ensures var r := AllocLarge(p, size, align);
      r.0.Some? ==>
        var off := r.0.value - p.start;
        && off % align == 0
        && off + size <= PAGE_SIZE
        && (var k := FirstFit(p.freeBlocks, size, align, 0);
            if k < |p.freeBlocks| then p.freeBlocks[k].0 <= off
            else p.currentOffset <= off)
  {
    PowerOfTwoBelowWord(align);
    var r := AllocLarge(p, size, align);
    var k := FirstFit(p.freeBlocks, size, align, 0);
    if r.0.Some? {
      var off := r.0.value - p.start;
      if k < |p.freeBlocks| {
        var b := p.freeBlocks[k];
        assert off == AlignUp(b.0, align);
        assert End(b) <= p.currentOffset;
        AlignUpIsLeastMultiple(b.0, align);
      } else {
        assert off == AlignUp(p.currentOffset, align);
        AlignUpIsLeastMultiple(p.currentOffset, align);
      }
    }
  }

  /** The page owns `addr`: it lies in [start, start + PAGE_SIZE). */
  predicate Owns(p: Page, addr: nat)
  {
    p.start <= addr < p.start + PAGE_SIZE
  }

  /** On a page that starts on a page boundary, the address `alloc_large`
      returns is itself aligned, for any power-of-two alignment up to a page. */
  lemma AllocLargeAddressAligned(p: Page, size: nat, align: nat)
    requires PageInv(p) && p.start % PAGE_SIZE == 0
    requires IsPowerOfTwo(align) && align <= PAGE_SIZE
    ensures var a := AllocLarge(p, size, align).0;
      a.Some? ==> a.value % align == 0
  {
    var r := AllocLarge(p, size, align);
    if r.0.Some? {
      assert align < WORD;
      AllocLargeAligned(p, size, align);
      var off := r.0.value - p.start;
      assert off % align == 0;
      AlignedSum(p.start, off, align);
    }
  }

  /** A non-empty large block handed out by a page that keeps its invariant
      has an address the page owns, and its record is live in the page. */
  lemma AllocLargeOwned(p: Page, size: nat, align: nat)
    requires PageInv(p) && IsPowerOfTwo(align) && align < WORD && size > 0
    ensures var (a, r) := AllocLarge(p, size, align);
      a.Some? ==>
        && Owns(r, a.value) && a.value + size <= r.start + PAGE_SIZE
        && (a.value - p.start, size) in r.allocations
  {
    AllocLargeAligned(p, size, align);
  }

  /** `alloc_large` keeps the page invariant, and the bump cursor never moves back. */
  lemma AllocLargeKeepsInv(p: Page, size: nat, align: nat)
    requires PageInv(p)
    requires IsPowerOfTwo(align) && align < WORD
    ensures PageInv(AllocLarge(p, size, align).1)
    ensures p.currentOffset <= AllocLarge(p, size, align).1.currentOffset
  {
    PowerOfTwoBelowWord(align);
    var k := FirstFit(p.freeBlocks, size, align, 0);
    if k < |p.freeBlocks| {
      FreeListPathKeepsInv(p, size, align);
    } else {
      AlignUpIsLeastMultiple(p.currentOffset, align);
    }
  }

  lemma FreeListPathKeepsInv(p: Page, size: nat, align: nat)
    requires PageInv(p)
    requires IsPowerOfTwo(align) && align < WORD
    requires FirstFit(p.freeBlocks, size, align, 0) < |p.freeBlocks|
    ensures PageInv(AllocLarge(p, size, align).1)
  {
    var k := FirstFit(p.freeBlocks, size, align, 0);
    var b := p.freeBlocks[k];
    assert b in p.freeBlocks;
    PowerOfTwoBelowWord(align);
    AlignUpIsLeastMultiple(b.0, align);
    var a := AlignUp(b.0, align);
    FragmentsTile(b, a, size);
    var rest := RemoveAt(p.freeBlocks, k);
    var frags := Fragments(b, a, size);
    var r := AllocLarge(p, size, align).1;
    assert r.freeBlocks == rest + frags;
    assert r.allocations == p.allocations + [(a, size)];
    assert End(b) <= p.currentOffset;
    assert forall c :: c in rest + frags ==> c in rest || c in frags;
  }

  /** `dealloc_large` (src/combined_allocator.rs:116-125). When the exact record
      `(ptr - start, size)` is live, its first occurrence is dropped from
      `allocations`, and the range joins the free list, which is re-sorted and
      coalesced. Any other call changes nothing. */
  function DeallocLarge(p: Page, ptr: nat, size: nat): (r: Page)
    requires p.start <= ptr
    ensures r.start == p.start && r.currentOffset == p.currentOffset && r.bitmap == p.bitmap
    ensures (ptr - p.start, size) !in p.allocations ==> r == p
    ensures (ptr - p.start, size) in p.allocations ==>
      && r.allocations == RemoveAt(p.allocations, IndexOf(p.allocations, (ptr - p.start, size)))
      && multiset(r.allocations) + multiset{(ptr - p.start, size)} == multiset(p.allocations)
      && SortedByOffset(r.freeBlocks)
      && NoTouching(r.freeBlocks)
      && TotalSize(r.freeBlocks) == TotalSize(p.freeBlocks) + size
      && (forall x: nat :: Covered(r.freeBlocks, x) <==>
            Covered(p.freeBlocks, x) || InBlock((ptr - p.start, size), x))
      && (forall limit :: WithinLimit(p.freeBlocks, limit) && End((ptr - p.start, size)) <= limit
            ==> WithinLimit(r.freeBlocks, limit))
  {
    var rec := (ptr - p.start, size);
    var pos := IndexOf(p.allocations, rec);
    if pos == |p.allocations| then p
    else
      var added := p.freeBlocks + [rec];
      TotalSizeConcat(p.freeBlocks, [rec]);
      SortKeepsBlocks(added);
      assert forall x: nat :: Covered(added, x) <==> Covered(p.freeBlocks, x) || InBlock(rec, x);
      p.(allocations := RemoveAt(p.allocations, pos),
         freeBlocks := Merge(SortByOffset(added)))
  }

  /** `dealloc_large` keeps the page invariant. */
  lemma DeallocLargeKeepsInv(p: Page, ptr: nat, size: nat)
    requires PageInv(p) && p.start <= ptr
    ensures PageInv(DeallocLarge(p, ptr, size))
  {
    var rec := (ptr - p.start, size);
    if rec in p.allocations {
      var r := DeallocLarge(p, ptr, size);
      assert End(rec) <= p.currentOffset;
      assert forall c :: c in r.allocations ==> c in multiset(p.allocations);
    }
  }
}
